=== FILE: README.md ===
# OxyPlot.SkiaSharp.Blazor render context and input translation, in Dafny

This project models two parts of OxyPlot's SkiaSharp/Blazor back end.

1. **`SkiaRenderContext`**: the render context that turns OxyPlot's drawing
   calls into SkiaSharp canvas calls. The model covers:
   - device scaling (`Convert`, `ConvertBack`, dash arrays);
   - pixel snapping (the snap offset parity rule, round-half-away-from-zero
     snapping, the actual stroke thickness, and which geometry snaps under
     which edge rendering mode and render target);
   - the early-exit guards of each drawing primitive and the fill/stroke
     draws each one issues;
   - the arithmetic of text layout (`DrawText` and `MeasureText`);
   - the clip counter (`ClipCount`, `PushClip`, `PopClip`);
   - the typeface and shaper caches keyed by `FontDescriptor`, including the
     embedded-font fallback naming rule, and `Dispose`.
2. **`EventArgsConversionUtil`**: translation of Blazor mouse and wheel events
   into OxyPlot's button, cursor, modifier-key, mouse-down and wheel arguments.

The SkiaSharp canvas is modelled as an abstract trace of the calls issued
(`Canvas.CanvasOp`). `Canvas.SaveCountAfter` interprets the trace's effect on
the canvas save count. When a call raises an exception part-way through, its
`Canvas.Outcome` keeps the operations issued before the exception and
records the exception. The font libraries enter as a value of
`Fonts.FontSystem`, whose function fields are taken as given. Those fields
cover:
- family-name resolution;
- the embedded resource names;
- font metrics;
- glyph advances from shaping;
- plain text widths;
- `StringHelper.SplitLines`.

Floating-point numbers are modelled as `real`.
- `Math.Round(…, MidpointRounding.AwayFromZero)` is `Numeric.RoundAway`.
- C#'s `%` on a `float` keeps the sign of the dividend; this is
  `Numeric.RemTwo`.
- `(int)` of a `long` wraps to 32 bits; this is `Numeric.Wrap32`.
- `(int)` of a `double` truncates toward zero; this is `Numeric.Trunc`.

`RenderContextBase.IsStraightLine` is a function parameter of the primitives
that use it.

Modules:
- `Numeric`: rounding, truncation, remainder, wrap-around, sum and maximum.
- `Types`: geometry, colours, enumerations and the context's settings.
- `Canvas`: paints, path verbs, canvas operations and the save count.
- `Snapping`: scaling, snapping, the actual geometry and the paints.
- `Primitives`: the drawing primitives.
- `Fonts`: font descriptors, the caches, the fallback naming rule and disposal.
- `RenderState`: the context state and the clip stack.
- `TextLayout`: `DrawText` and `MeasureText`.
- `Input`: the event conversions.

## Model

| member | source | states |
|---|---|---|
| Numeric.RoundAway | OxyPlot.SkiaSharp.Blazor/SkiaRenderContext.cs:547-550 | the result is an integer within 1/2 of the input; a tie goes away from zero |
| Numeric.RemTwo | OxyPlot.SkiaSharp.Blazor/SkiaRenderContext.cs:536 | the remainder of division by 2 lies in [0, 2) for a non-negative dividend and in (-2, 0] for a negative one; the dividend minus the remainder is an even integer |
| Numeric.Wrap32 | OxyPlot.SkiaSharp.Blazor/EventArgsConversionUtil.cs:8 | the 32-bit cast lands in the int range, is congruent to its input modulo 2^32, and is the identity on in-range values |
| Numeric.Trunc | OxyPlot.SkiaSharp.Blazor/EventArgsConversionUtil.cs:44 | truncation toward zero: the result lies between 0 and the input, less than 1 away from the input |
| Numeric.MaxOf | OxyPlot.SkiaSharp.Blazor/SkiaRenderContext.cs:447 | the maximum of a non-empty sequence is one of its elements and bounds all of them |
| Snapping.ConvertRoundTrip | OxyPlot.SkiaSharp.Blazor/SkiaRenderContext.cs:571-594 | scaling by the DPI factor and scaling back are inverse in both orders |
| Snapping.Snap | OxyPlot.SkiaSharp.Blazor/SkiaRenderContext.cs:547-550 | the snapped value plus the offset is a whole number within 1/2 of the scaled value plus the offset, and a tie is resolved away from zero |
| Snapping.SnapIdempotent | OxyPlot.SkiaSharp.Blazor/SkiaRenderContext.cs:547-550 | snapping a snapped value again leaves it unchanged |
| Snapping.SnappedFromUnique | OxyPlot.SkiaSharp.Blazor/SkiaRenderContext.cs:547-550 | rounding away from zero leaves no choice: two grid values snapped from the same value are equal |
| Snapping.SnappedFromIsSnap | OxyPlot.SkiaSharp.Blazor/SkiaRenderContext.cs:547-550 | every value on the offset grid within 1/2 of the input, ties away from zero, is the one Snap computes |
| Snapping.SnapOffset | OxyPlot.SkiaSharp.Blazor/SkiaRenderContext.cs:534-539 | the snap offset is always 0 or 0.5 |
| Snapping.SnapOffsetParity | OxyPlot.SkiaSharp.Blazor/SkiaRenderContext.cs:534-539 | for non-negative widths the offset is 0.5 exactly when the width rounds to an odd number of pixels |
| Snapping.SnapOffsetOfWholeWidth | OxyPlot.SkiaSharp.Blazor/SkiaRenderContext.cs:534-539 | a whole width of n pixels gets offset 0.5 exactly when n is odd |
| Snapping.SnapOffsetNonPositive | OxyPlot.SkiaSharp.Blazor/SkiaRenderContext.cs:534-539 | a zero or negative width gets offset 0, because the sign-keeping remainder is never in [0.5, 1.5) |
| Snapping.SnapOffsetExamples | OxyPlot.SkiaSharp.Blazor/SkiaRenderContext.cs:534-539 | widths 1, 2, 2.4 and 2.6 get offsets 0.5, 0, 0 and 0.5 |
| Snapping.ActualThickness | OxyPlot.SkiaSharp.Blazor/SkiaRenderContext.cs:721-730 | under PreferSharpness on a pixel target the stroke width is a whole number of pixels within 1/2 of the scaled width, a half-pixel tie rounding away from zero; otherwise it is exactly the scaled width |
| Snapping.SnapOffsetFor | OxyPlot.SkiaSharp.Blazor/SkiaRenderContext.cs:822-826 | the offset for a stroke is 0 or 1/2, and for a non-negative actual width it is 1/2 exactly when that width rounds to an odd number of pixels; zero and negative widths snap to pixel borders |
| Snapping.AliasedIsNeverSnapped | OxyPlot.SkiaSharp.Blazor/SkiaRenderContext.cs:955-958 | anti-aliasing is off exactly for PreferSpeed, and geometry drawn without it is never snapped |
| Snapping.SnapEligibility | OxyPlot.SkiaSharp.Blazor/SkiaRenderContext.cs:657-713 | nothing snaps under PreferSpeed or for a vector target; rectangles and segment pairs are candidates under Automatic, Adaptive and PreferSharpness on a pixel target; polylines snap under PreferSharpness always and under Automatic and Adaptive only when straight |
| Snapping.ConvertSnapPoint | OxyPlot.SkiaSharp.Blazor/SkiaRenderContext.cs:634-648 | each coordinate of the point is snapped from its scaled value: on the offset grid, within 1/2, a tie going away from zero |
| Snapping.ConvertSnapRect | OxyPlot.SkiaSharp.Blazor/SkiaRenderContext.cs:619-626 | each edge of the rectangle is snapped from its scaled value: on the offset grid, within 1/2, a tie going away from zero |
| Snapping.ActualPoints | OxyPlot.SkiaSharp.Blazor/SkiaRenderContext.cs:657-669 | the point list keeps its length; each point is snapped (ties away from zero) when the polyline rule allows it and is exactly the scaled point otherwise |
| Snapping.ActualRect | OxyPlot.SkiaSharp.Blazor/SkiaRenderContext.cs:678-691 | the rectangle is snapped (ties away from zero) when the rectangle rule allows it and is exactly the scaled rectangle otherwise |
| Snapping.PlacedRectUnique | OxyPlot.SkiaSharp.Blazor/SkiaRenderContext.cs:619-626 | a converted rectangle is determined by its input rectangle, snapping rule and offset |
| Snapping.ActualRects | OxyPlot.SkiaSharp.Blazor/SkiaRenderContext.cs:700-713 | the list keeps its length; with the switch taken once for the whole list, every rectangle is snapped from its scaled edges (ties away from zero) when the rectangle rule allows it and is exactly the scaled rectangle otherwise, and each element agrees with the single-rectangle conversion |
| Snapping.ConvertDashArray | OxyPlot.SkiaSharp.Blazor/SkiaRenderContext.cs:602-611 | the dash array keeps its length; for a non-zero stroke width, scaling back and dividing by the width recovers each input dash; a stroke width of zero (a snapped width that rounded to 0) makes every dash 0 |
| Snapping.FillPaintFor | OxyPlot.SkiaSharp.Blazor/SkiaRenderContext.cs:741-748 | a fill paint in the given colour that anti-aliases unless the mode is PreferSpeed |
| Snapping.StrokePaintFor | OxyPlot.SkiaSharp.Blazor/SkiaRenderContext.cs:838-848 | a solid, mitred stroke paint with the actual thickness and the context's miter limit, anti-aliased unless the mode is PreferSpeed |
| Snapping.LinePaintFor | OxyPlot.SkiaSharp.Blazor/SkiaRenderContext.cs:779-798 | an unnamed line join raises ArgumentOutOfRangeException("lineJoin"); otherwise the paint has the colour, the actual width, the settings' miter limit, the mapped join and the dashes scaled by the actual width |
| Primitives.AddPoints | OxyPlot.SkiaSharp.Blazor/SkiaRenderContext.cs:511-524 | a MoveTo to the first point and a LineTo to each following point, in order, so consecutive points are joined by lines |
| Primitives.AddPointsVisitsPoints | OxyPlot.SkiaSharp.Blazor/SkiaRenderContext.cs:511-524 | the path visits exactly the given points, in order |
| Primitives.AddPointsIsOpen | OxyPlot.SkiaSharp.Blazor/SkiaRenderContext.cs:511-524 | the path contains no Close verb |
| Primitives.DrawEllipse | OxyPlot.SkiaSharp.Blazor/SkiaRenderContext.cs:87-107 | a fill oval is drawn exactly when the fill is visible, then a stroke oval exactly when the stroke is visible and thick; both ovals are the scaled extents; the fill draw uses the fill paint and the stroke draw the stroke paint |
| Primitives.DrawEllipses | OxyPlot.SkiaSharp.Blazor/SkiaRenderContext.cs:110-134 | the same fill-then-stroke rule, applied to one path with an oval per extent; the fill draw uses the fill paint and the stroke draw the stroke paint |
| Primitives.DrawRectangle | OxyPlot.SkiaSharp.Blazor/SkiaRenderContext.cs:315-335 | the fill-then-stroke rule on the actual rectangle, snapped (ties away from zero) under the rectangle rule, the fill and the stroke landing on the same rectangle; the fill draw uses the fill paint and the stroke draw the stroke paint |
| Primitives.DrawRectangles | OxyPlot.SkiaSharp.Blazor/SkiaRenderContext.cs:338-362 | nothing for an empty list; otherwise the fill-then-stroke rule on one path with an actual rectangle per input; the fill draw uses the fill paint and the stroke draw the stroke paint |
| Primitives.DrawLine | OxyPlot.SkiaSharp.Blazor/SkiaRenderContext.cs:166-185 | nothing for fewer than two points or an undrawn stroke; an unnamed join raises ArgumentOutOfRangeException("lineJoin") before anything is drawn; otherwise one stroke draw with the line paint of the connected open path through the actual points |
| Primitives.PolygonPath | OxyPlot.SkiaSharp.Blazor/SkiaRenderContext.cs:255-258 | the polygon path starts with a MoveTo to the first actual point, joins each following actual point with a LineTo, and ends with its only Close |
| Primitives.DrawPolygon | OxyPlot.SkiaSharp.Blazor/SkiaRenderContext.cs:241-271 | nothing below two points; otherwise the closed path of the polygon is filled and then stroked, and the fill is drawn before the line paint can raise on the join, so an ArgumentOutOfRangeException("lineJoin") leaves only the fill; the fill draw uses the fill paint and the stroke draw the line paint |
| Primitives.Drawable | OxyPlot.SkiaSharp.Blazor/SkiaRenderContext.cs:289-294 | the polygons drawn are exactly those with at least two points, in their order |
| Primitives.PolygonsPath | OxyPlot.SkiaSharp.Blazor/SkiaRenderContext.cs:288-299 | the compound path is the closed paths of the drawable polygons one after another, so it has one Close per drawable polygon and visits their actual points in polygon order; polygons below two points contribute nothing |
| Primitives.DrawPolygons | OxyPlot.SkiaSharp.Blazor/SkiaRenderContext.cs:274-312 | nothing for an empty list; otherwise every draw is of the compound path of the drawable polygons, fill before stroke, with the ArgumentOutOfRangeException("lineJoin") after the fill; the fill draw uses the fill paint and the stroke draw the line paint |
| Primitives.FillThenStrokePath | OxyPlot.SkiaSharp.Blazor/SkiaRenderContext.cs:260-270 | a fill draw of the path exactly when the fill is visible, then a stroke draw of the same path exactly when the stroke is drawn and the join is named; an unnamed join raises ArgumentOutOfRangeException("lineJoin") after the fill; the fill draw uses the fill paint and the stroke draw the line paint |
| Primitives.SegmentPair | OxyPlot.SkiaSharp.Blazor/SkiaRenderContext.cs:212-223 | both points of a pair are snapped (ties away from zero) when the pair is straight, and both are exactly scaled otherwise |
| Primitives.SegmentSlotIsLocal | OxyPlot.SkiaSharp.Blazor/SkiaRenderContext.cs:210-224 | each output slot depends only on its own input pair (2k, 2k+1) |
| Primitives.SnappedSegmentPoints | OxyPlot.SkiaSharp.Blazor/SkiaRenderContext.cs:203-226 | the snapping loop fills every slot of a complete pair from that pair and leaves a trailing odd slot at the default point |
| Primitives.PlainSegmentPoints | OxyPlot.SkiaSharp.Blazor/SkiaRenderContext.cs:227-234 | the plain loop scales every point of an even-length list; on an odd length the read one past the end of the point list raises ArgumentOutOfRangeException("index") |
| Primitives.SegmentPoints | OxyPlot.SkiaSharp.Blazor/SkiaRenderContext.cs:203-235 | the edge mode and render target select the snapping loop or the plain loop |
| Primitives.DrawLineSegments | OxyPlot.SkiaSharp.Blazor/SkiaRenderContext.cs:188-238 | nothing for fewer than two points or an undrawn stroke; it raises ArgumentOutOfRangeException("lineJoin") on an unnamed join and otherwise ArgumentOutOfRangeException("index") on an odd count in the plain branch; otherwise one point-pair stroke draw whose points are slot by slot as above; the draw uses the line paint |
| Fonts.WeightNameRegular | OxyPlot.SkiaSharp.Blazor/SkiaRenderContext.cs:24-35 | the weight name is "Regular" exactly for weight 400 and for weights outside the hundreds from 100 to 900 |
| Fonts.MatchingResources | OxyPlot.SkiaSharp.Blazor/SkiaRenderContext.cs:876 | the matches are exactly those resource names whose lower-cased form ends with the suffix, in the order the resources are listed |
| Fonts.LastMatchIsLastMatching | OxyPlot.SkiaSharp.Blazor/SkiaRenderContext.cs:876-882 | the last typeface loaded comes from the matching resource that is last in enumeration order |
| Fonts.FallbackMatches | OxyPlot.SkiaSharp.Blazor/SkiaRenderContext.cs:875-877 | when some resource name, lower-cased, ends with the lower-cased `{family}-{weight}.ttf`, the result is exactly those names; when none does, it is exactly the names ending with `{family}.ttf`; either way in resource order |
| Fonts.SecondarySuffixIsCaseSensitive | OxyPlot.SkiaSharp.Blazor/SkiaRenderContext.cs:877 | a family name with an upper-case letter never matches through the un-lowered secondary suffix |
| Fonts.RobotoResourceIsMissed | OxyPlot.SkiaSharp.Blazor/SkiaRenderContext.cs:877 | for family "Roboto", the resource "Fonts.Roboto.ttf" is not loaded, although a case-insensitive comparison matches it |
| Fonts.CreateTypeface | OxyPlot.SkiaSharp.Blazor/SkiaRenderContext.cs:865-883 | the font manager's typeface is kept when its family equals the requested one; otherwise the typeface comes from the last fallback match when there is one and is the font manager's when there is none; every typeface constructed takes a fresh id |
| Fonts.EmbeddedFallbackIff | OxyPlot.SkiaSharp.Blazor/SkiaRenderContext.cs:867-881 | a typeface comes from an embedded resource exactly when the resolved family differs from the requested one and some resource name matches the primary or the secondary suffix |
| Fonts.GetTextPaint | OxyPlot.SkiaSharp.Blazor/SkiaRenderContext.cs:861-911 | a miss caches the typeface CreateTypeface builds, a hit reuses the cached one and existing entries are unchanged; the shaper cache grows only with shaping, and a shaper is returned iff shaping is on; a full hit changes nothing; cache validity is preserved; the paint has the scaled size and screen-dependent hinting |
| Fonts.GetTextPaintRepeat | OxyPlot.SkiaSharp.Blazor/SkiaRenderContext.cs:863-893 | repeating a lookup with an equal descriptor creates nothing and returns the same typeface and shaper |
| Fonts.GetTextPaintsKeys | OxyPlot.SkiaSharp.Blazor/SkiaRenderContext.cs:863-883 | after a series of lookups the typeface cache holds exactly the old keys plus the requested ones, with old entries unchanged |
| Fonts.ReleaseTypefaces | OxyPlot.SkiaSharp.Blazor/SkiaRenderContext.cs:491-496 | every cached typeface is released exactly once |
| Fonts.ReleaseShapers | OxyPlot.SkiaSharp.Blazor/SkiaRenderContext.cs:498-503 | every cached shaper is released exactly once |
| Fonts.Dispose | OxyPlot.SkiaSharp.Blazor/SkiaRenderContext.cs:479-504 | both caches end empty; every entry is released once, typefaces before shapers; a second disposal releases nothing |
| RenderState.ClipCount | OxyPlot.SkiaSharp.Blazor/SkiaRenderContext.cs:72 | the clip count is the save count minus one, or 0 with no canvas |
| RenderState.PushClip | OxyPlot.SkiaSharp.Blazor/SkiaRenderContext.cs:464-468 | with a canvas it issues exactly Save then the clip to the scaled rectangle, and the clip count rises by one; with no canvas it raises NullReferenceException |
| RenderState.PopClip | OxyPlot.SkiaSharp.Blazor/SkiaRenderContext.cs:453-461 | at clip count 0 it raises InvalidOperationException("Unbalanced call to PopClip."); otherwise it issues exactly one Restore and the count drops by one |
| RenderState.PushClipsRaiseCount | OxyPlot.SkiaSharp.Blazor/SkiaRenderContext.cs:464-468 | N pushes succeed and raise the clip count by N |
| RenderState.PopClipsLowerCount | OxyPlot.SkiaSharp.Blazor/SkiaRenderContext.cs:453-461 | up to clip-count pops succeed, each lowering the count by one |
| RenderState.PushPopBalance | OxyPlot.SkiaSharp.Blazor/SkiaRenderContext.cs:453-468 | N pushes then N pops return the context to its start; one pop more from count 0 raises |
| TextLayout.VerticalAnchor | OxyPlot.SkiaSharp.Blazor/SkiaRenderContext.cs:391-397 | Top puts the text block's top on the anchor, Bottom its bottom, and Middle its centre; any other value raises ArgumentOutOfRangeException("verticalAlignment") |
| TextLayout.MiddleIsHalfway | OxyPlot.SkiaSharp.Blazor/SkiaRenderContext.cs:393-395 | the Middle anchor is the mean of the Top and Bottom anchors |
| TextLayout.HorizontalOffset | OxyPlot.SkiaSharp.Blazor/SkiaRenderContext.cs:408-414 | a shaped line starts (Left), is centred (Center) or ends (Right) at the anchor; any other value raises ArgumentOutOfRangeException("horizontalAlignment") |
| TextLayout.TextAlignFor | OxyPlot.SkiaSharp.Blazor/SkiaRenderContext.cs:421-427 | the unshaped paint alignment matches the requested alignment and fails exactly when the shaped offset does |
| TextLayout.LineWidth | OxyPlot.SkiaSharp.Blazor/SkiaRenderContext.cs:920-948 | without shaping the width is the paint's own measurement; with shaping it is the sum of glyph advances times the text size over 512, non-negative exactly when the advances sum to a non-negative value at a positive text size |
| TextLayout.LineOp | OxyPlot.SkiaSharp.Blazor/SkiaRenderContext.cs:403-429 | one line is drawn shaped at its aligned offset or plain with the paint's alignment; an invalid alignment raises |
| TextLayout.LineOps | OxyPlot.SkiaSharp.Blazor/SkiaRenderContext.cs:401-432 | the loop draws one line per input line and raises on the first line when the alignment is invalid |
| TextLayout.LineOpsPlaceLines | OxyPlot.SkiaSharp.Blazor/SkiaRenderContext.cs:401-432 | line k is drawn at baseline anchor + k·lineSpacing, the closed form of the loop's running increment |
| TextLayout.FrameRestoresSaveCount | OxyPlot.SkiaSharp.Blazor/SkiaRenderContext.cs:399-401 | draws between the automatic save and its restore leave the save count where it started |
| TextLayout.TextFrame | OxyPlot.SkiaSharp.Blazor/SkiaRenderContext.cs:399-433 | the canvas save count is unchanged afterwards, whether or not the line loop raised |
| TextLayout.TextFrameLayout | OxyPlot.SkiaSharp.Blazor/SkiaRenderContext.cs:399-433 | the issued calls are save, translate, rotate, the lines in order (none on an exception), then the restore |
| TextLayout.DrawText | OxyPlot.SkiaSharp.Blazor/SkiaRenderContext.cs:365-434 | null text or an invisible fill does nothing; otherwise the font is cached even if an exception follows; the clip count is unchanged; the exceptions are the vertical alignment, a missing canvas and the horizontal alignment, in that order |
| TextLayout.DrawTextLayout | OxyPlot.SkiaSharp.Blazor/SkiaRenderContext.cs:385-432 | line k of the split text is drawn at the vertical anchor plus k line spacings, inside the translated and rotated state |
| TextLayout.BlockSize | OxyPlot.SkiaSharp.Blazor/SkiaRenderContext.cs:446-449 | the measured size scales back to the block height and to a width that bounds every line width and equals one of them |
| TextLayout.MeasureText | OxyPlot.SkiaSharp.Blazor/SkiaRenderContext.cs:437-450 | null text gives (0, 0) and leaves the caches alone; otherwise the width is the widest line and the height is the line spacing times the line count, both scaled back; no lines raises InvalidOperationException |
| TextLayout.MeasureMatchesDrawOffset | OxyPlot.SkiaSharp.Blazor/SkiaRenderContext.cs:407-414 | with shaping, a one-line text drawn Right or Center is shifted left by its measured width or half of it |
| TextLayout.DefaultWeightsCacheTwoTypefaces | OxyPlot.SkiaSharp.Blazor/SkiaRenderContext.cs:437 | DrawText's default weight 400 and MeasureText's default 500 give two cache entries for one family |
| Input.ButtonFor | OxyPlot.SkiaSharp.Blazor/EventArgsConversionUtil.cs:12-18 | codes 0, 1 and 2 give Left, Middle and Right; every other code gives None; XButton1 and XButton2 never occur |
| Input.ButtonRoundTrip | OxyPlot.SkiaSharp.Blazor/EventArgsConversionUtil.cs:12-18 | Left, Middle and Right come back from their browser codes |
| Input.TranslateCursorType | OxyPlot.SkiaSharp.Blazor/EventArgsConversionUtil.cs:20-28 | Pan gives "grabbing", ZoomRectangle "zoom-in", ZoomHorizontal "col-resize" and ZoomVertical "row-resize"; the result is "default" exactly for Default and for unnamed values |
| Input.CursorNamesDistinct | OxyPlot.SkiaSharp.Blazor/EventArgsConversionUtil.cs:20-28 | named cursor types map to distinct CSS names, and every one of the five names is reached |
| Input.ModifierKeys | OxyPlot.SkiaSharp.Blazor/EventArgsConversionUtil.cs:30-38 | each flag is present exactly when its key is pressed, and no pressed key gives no flags |
| Input.ModifierKeysDependOnKeysOnly | OxyPlot.SkiaSharp.Blazor/EventArgsConversionUtil.cs:30-38 | the flags depend only on the four key states |
| Input.WheelModifierKeys | OxyPlot.SkiaSharp.Blazor/EventArgsConversionUtil.cs:39 | the wheel event's flags hold Shift, Alt, Control and Windows exactly when the corresponding key of its mouse event is pressed, and nothing else |
| Input.MouseDown | OxyPlot.SkiaSharp.Blazor/EventArgsConversionUtil.cs:5-11 | the position is the offset point; the click count is the detail cast to 32 bits; the button and the flags are as above |
| Input.MouseWheel | OxyPlot.SkiaSharp.Blazor/EventArgsConversionUtil.cs:41-46 | the delta is the negated vertical delta when that is non-zero, otherwise the horizontal delta, truncated toward zero |
| Input.WholeDeltasPassThrough | OxyPlot.SkiaSharp.Blazor/EventArgsConversionUtil.cs:44 | a whole non-zero vertical delta n gives delta -n |

## Left out

- `DrawImage` and `GetImagePaint`: these only scale the destination rectangle
  and decode the bitmap through SkiaSharp.
- `CleanUp` and `SetToolTip`: both have empty bodies.
- `Dispose` of the shared paint and path objects. Using the context after
  `Dispose` (a null paint or path) is not modelled. The model keeps only the
  cache teardown.
- The mutable shared `paint` and `path` objects are not modelled as state.
  Each draw call gets the paint's settings as a value.
- Drawing primitives assume an attached canvas. Without one, each raises
  NullReferenceException at its first canvas call. This case is modelled only
  for `DrawText`, `PushClip` and `PopClip`, whose contracts name it.
- IEEE float32/double behaviour is not modelled: rounding of `(float)` casts,
  NaN and infinities, the remainder of NaN, and the `(byte)` alpha of images.
  Reals stand in for floating point, and the DPI scale is taken as positive.
- `Input.MouseWheel`: it does not model a `(int)` cast of a double outside
  the 32-bit range. The contract covers only in-range truncation toward zero.
- The HarfBuzz shaping buffer is not modelled, and neither is its encoding
  switch with the NotSupportedException for an encoding other than UTF-8,
  UTF-16 or UTF-32 (SkiaRenderContext.cs:930-942). The paint's encoding is
  taken to be one of the three, so `TextLayout.LineWidth` cannot fail. The
  glyph advances of a shaped line are an input; only the sum × text size /
  512 arithmetic is modelled.
- `TextLayout.LineWidth`: the advances are summed with `Numeric.Sum`, which
  is unbounded. LINQ's `Sum` over `int` (SkiaRenderContext.cs:947) is
  checked and raises OverflowException past the 32-bit range; that failure
  is not modelled.
- Manifest-resource streams, the entry assembly, `Console.WriteLine` and the
  catch-all around the fallback are left out. Resource names are an input,
  and the model has no I/O that could throw.
- Typefaces built by the fallback loop but not kept are not released. The
  model counts their construction but does not track them.
- Lower-casing is ASCII only; culture-specific case mapping of non-ASCII
  names is not modelled, and neither is the culture-sensitive comparison of
  `EndsWith` (SkiaRenderContext.cs:876-877), which the model treats as an
  ordinal suffix test.
- `Fonts.WeightName`: the `(int)fontWeight` cast is `Numeric.Trunc`; a
  weight outside the 32-bit range, NaN or infinity is not modelled.
- The `maxSize` parameter of `DrawText` is not modelled, because
  `SkiaRenderContext.DrawText` ignores it.
- `Primitives.PlainSegmentPoints`: the odd-count read goes through the
  `IList<ScreenPoint>` indexer; the model raises what `List<T>` and arrays
  raise there. Another `IList` implementation could raise something else.
- `PlotView.cs` is not part of this model: the Blazor component lifecycle,
  model locking and canvas attachment.
- A case-insensitive fallback would find `Fonts.Roboto.ttf` for the family
  `Roboto`. The code lower-cases only the resource name
  (SkiaRenderContext.cs:876-877), and its second comparison uses the
  un-lowered family name, so it does not. The model follows the code; see
  `Fonts.SecondarySuffixIsCaseSensitive` and `Fonts.RobotoResourceIsMissed`.
- The early exit of `DrawEllipse`, `DrawRectangle`, `DrawRectangles`,
  `DrawPolygon` and `DrawPolygons` is kept with its operators as written.
  `DrawEllipses` is the one that uses `!stroke.IsVisible() || thickness <= 0`.
  The per-draw checks make the difference unobservable in what is drawn.

=== FILE: canvas.dfy ===
/**
 The raster canvas the render context drives, as an abstract trace: the
 paints, path verbs and canvas operations the context issues, and the effect
 of a trace on the canvas's save count.
 */
module Canvas {
  import opened Types

  datatype TextAlign = AlignLeft | AlignCenter | AlignRight

  datatype StrokeJoin = JoinMiter | JoinRound | JoinBevel

  /** Where a typeface came from: the system font manager or an embedded resource. */
  datatype TypefaceOrigin = SystemFamily(familyName: string) | EmbeddedResource(resourceName: string)

  /** A native typeface; `id` tells apart objects constructed at different times. */
  datatype Typeface = Typeface(id: nat, origin: TypefaceOrigin)

  /** A native text shaper, built for one typeface. */
  datatype Shaper = Shaper(id: nat, typeface: Typeface)

  /** The text state of the shared paint after a text-paint lookup. */
  datatype TextStyle = TextStyle(
    typeface: Typeface,
    textSize: real,
    antialias: bool,
    fullHinting: bool,
    subpixelText: bool)

  /** The paint state a draw call is issued with. */
  datatype Paint =
    | FillPaint(color: OxyColor, antialias: bool)
    | StrokePaint(
        color: OxyColor,
        antialias: bool,
        strokeWidth: real,
        miterLimit: real,
        join: StrokeJoin,
        dash: Option<seq<real>>)
    | TextPaint(color: OxyColor, style: TextStyle)

  /** One element of an SKPath. */
  datatype PathVerb =
    | MoveTo(point: SkPoint)
    | LineTo(point: SkPoint)
    | Close
    | AddOval(oval: SkRect)
    | AddRect(rect: SkRect)

  type Path = seq<PathVerb>

  /** One call on the canvas. */
  datatype CanvasOp =
    | DrawOval(oval: SkRect, paint: Paint)
    | DrawRect(rect: SkRect, paint: Paint)
    | DrawPath(path: Path, paint: Paint)
    | DrawLinePoints(points: seq<SkPoint>, paint: Paint)
    | DrawShapedText(text: string, x: real, y: real, paint: Paint)
    | DrawPlainText(text: string, x: real, y: real, align: TextAlign, paint: Paint)
    | Save
    | Restore
    | RestoreToCount(count: int)
    | Translate(dx: real, dy: real)
    | RotateDegrees(degrees: real)
    | ClipRect(clip: SkRect)
  {
    /** Operations that put pixels on the canvas (they all carry a paint). */
    predicate IsDraw() {
      DrawOval? || DrawRect? || DrawPath? || DrawLinePoints? || DrawShapedText? || DrawPlainText?
    }

    predicate IsFillDraw() { IsDraw() && paint.FillPaint? }

    predicate IsStrokeDraw() { IsDraw() && paint.StrokePaint? }
  }

  /** What a call on the render context did: the canvas operations it issued,
      and the exception that ended it, if one did. */
  datatype Outcome = Outcome(ops: seq<CanvasOp>, failure: Option<Failure>)

  const NoOp := Outcome([], None)

  /** The canvas's save count after one operation: Save pushes, Restore pops
      unless only the base state is left, RestoreToCount pops down to its
      argument (never below 1), everything else leaves it alone. */
  function SaveCountAfterOp(count: int, op: CanvasOp): int
  {
    match op
    case Save => count + 1
    case Restore => if count > 1 then count - 1 else count
    case RestoreToCount(n) =>
      var target := if n < 1 then 1 else n;
      if count > target then target else count
    case _ => count
  }

  /** The canvas's save count after a whole trace. */
  function SaveCountAfter(count: int, ops: seq<CanvasOp>): int
    decreases |ops|
  {
    if |ops| == 0 then count else SaveCountAfter(SaveCountAfterOp(count, ops[0]), ops[1..])
  }

  /** A trace's effect on the save count composes over concatenation. */
  lemma {:induction false} SaveCountAfterAppend(count: int, ops: seq<CanvasOp>, more: seq<CanvasOp>)
    ensures SaveCountAfter(count, ops + more) == SaveCountAfter(SaveCountAfter(count, ops), more)
    decreases |ops|
  {
    if |ops| == 0 {
      assert ops + more == more;
    } else {
      assert (ops + more)[1..] == ops[1..] + more;
      SaveCountAfterAppend(SaveCountAfterOp(count, ops[0]), ops[1..], more);
    }
  }

  /** Drawing never changes the save count. */
  lemma {:induction false} DrawsKeepSaveCount(count: int, ops: seq<CanvasOp>)
    requires forall i :: 0 <= i < |ops| ==> ops[i].IsDraw()
    ensures SaveCountAfter(count, ops) == count
    decreases |ops|
  {
    if |ops| > 0 {
      DrawsKeepSaveCount(count, ops[1..]);
    }
  }
}

=== FILE: clip.dfy ===
/**
 The render context's state and its clip stack (SkiaRenderContext.cs): the
 attached canvas is seen only through its save count, and the clip count is
 that save count minus one (zero without a canvas).
 */
module RenderState {
  import opened Types
  import opened Canvas
  import opened Snapping
  import opened Fonts

  /** A canvas's save count; the base state counts as one. */
  type SaveCount = n: int | n >= 1 witness 1

  /** The render context: configuration, the attached canvas (if any) and the font caches. */
  datatype Context = Context(settings: Settings, canvas: Option<SaveCount>, fonts: FontCache)

  /** The effect of one call: the context afterwards and what was issued. */
  datatype Step = Step(ctx: Context, outcome: Outcome)

  /** A freshly constructed context with no canvas attached. */
  const InitialContext := Context(DefaultSettings, None, EmptyCache)

  /** ClipCount: the save count minus the base state, or 0 without a canvas. */
  function ClipCount(c: Context): (n: nat)
    ensures c.canvas.None? ==> n == 0
    ensures c.canvas.Some? ==> n + 1 == c.canvas.value
  {
    if c.canvas.None? then 0 else c.canvas.value - 1
  }

  /** PushClip: save the canvas state, then clip to the scaled rectangle. */
  function PushClip(c: Context, rect: OxyRect): (r: Step)
    ensures r.ctx.settings == c.settings && r.ctx.fonts == c.fonts
    ensures c.canvas.None? ==> r == Step(c, Outcome([], Some(NullReference)))
    ensures c.canvas.Some? ==>
      && r.outcome.failure.None?
      && ClipCount(r.ctx) == ClipCount(c) + 1
      && SaveCountAfter(c.canvas.value, r.outcome.ops) == r.ctx.canvas.value
      && r.outcome.ops == [Save, ClipRect(ConvertRect(c.settings, rect))]
  {
    if c.canvas.None? then Step(c, Outcome([], Some(NullReference)))
    else
      var ops := [Save, ClipRect(ConvertRect(c.settings, rect))];
      assert SaveCountAfter(c.canvas.value, ops) == c.canvas.value + 1 by {
        var tail := [ClipRect(ConvertRect(c.settings, rect))];
        assert ops[1..] == tail && tail[1..] == [];
        assert SaveCountAfter(c.canvas.value + 1, tail) == c.canvas.value + 1;
      }
      Step(c.(canvas := Some(c.canvas.value + 1)), Outcome(ops, None))
  }

  /** PopClip: restore the last saved state; with none left it raises. */
  function PopClip(c: Context): (r: Step)
    ensures r.ctx.settings == c.settings && r.ctx.fonts == c.fonts
    ensures c.canvas.None? ==> r == Step(c, Outcome([], Some(NullReference)))
    ensures c.canvas.Some? && ClipCount(c) == 0 ==>
      r == Step(c, Outcome([], Some(InvalidOperation("Unbalanced call to PopClip."))))
    ensures ClipCount(c) > 0 ==>
      && r.outcome.failure.None?
      && ClipCount(r.ctx) == ClipCount(c) - 1
      && r.ctx.canvas.Some?
      && r.outcome.ops == [Restore]
      && SaveCountAfter(c.canvas.value, r.outcome.ops) == r.ctx.canvas.value
  {
    if c.canvas.None? then Step(c, Outcome([], Some(NullReference)))
    else if c.canvas.value == 1 then Step(c, Outcome([], Some(InvalidOperation("Unbalanced call to PopClip."))))
    else Step(c.(canvas := Some(c.canvas.value - 1)), Outcome([Restore], None))
  }

  /** A sequence of PushClip calls; stops at the first exception. */
  function PushClips(c: Context, rects: seq<OxyRect>): Step
    decreases |rects|
  {
    if |rects| == 0 then Step(c, NoOp)
    else
      var first := PushClip(c, rects[0]);
      if first.outcome.failure.Some? then first
      else
        var rest := PushClips(first.ctx, rects[1..]);
        Step(rest.ctx, Outcome(first.outcome.ops + rest.outcome.ops, rest.outcome.failure))
  }

  /** `n` PopClip calls; stops at the first exception. */
  function PopClips(c: Context, n: nat): Step
    decreases n
  {
    if n == 0 then Step(c, NoOp)
    else
      var first := PopClip(c);
      if first.outcome.failure.Some? then first
      else
        var rest := PopClips(first.ctx, n - 1);
        Step(rest.ctx, Outcome(first.outcome.ops + rest.outcome.ops, rest.outcome.failure))
  }

  /** With a canvas attached, N pushes succeed and raise the clip count by N. */
  lemma {:induction false} PushClipsRaiseCount(c: Context, rects: seq<OxyRect>)
    requires c.canvas.Some?
    ensures var r := PushClips(c, rects);
      && r.outcome.failure.None?
      && r.ctx == c.(canvas := Some(c.canvas.value + |rects|))
      && ClipCount(r.ctx) == ClipCount(c) + |rects|
    decreases |rects|
  {
    if |rects| > 0 {
      PushClipsRaiseCount(PushClip(c, rects[0]).ctx, rects[1..]);
    }
  }

  /** Up to ClipCount pops succeed, each lowering the count by one. */
  lemma {:induction false} PopClipsLowerCount(c: Context, n: nat)
    requires n <= ClipCount(c)
    ensures var r := PopClips(c, n);
      && r.outcome.failure.None?
      && (c.canvas.Some? ==> r.ctx == c.(canvas := Some(c.canvas.value - n)))
      && ClipCount(r.ctx) == ClipCount(c) - n
    decreases n
  {
    if n > 0 {
      PopClipsLowerCount(PopClip(c).ctx, n - 1);
    }
  }

  /** N pushes followed by N pops return the context to where it started,
      and one pop more raises InvalidOperation when the count started at zero. */
  lemma PushPopBalance(c: Context, rects: seq<OxyRect>)
    requires c.canvas.Some?
    ensures var pushed := PushClips(c, rects);
      var popped := PopClips(pushed.ctx, |rects|);
      && popped.outcome.failure.None?
      && popped.ctx == c
      && (ClipCount(c) == 0 ==> PopClip(popped.ctx).outcome.failure == Some(InvalidOperation("Unbalanced call to PopClip.")))
  {
    PushClipsRaiseCount(c, rects);
    PopClipsLowerCount(PushClips(c, rects).ctx, |rects|);
  }
}

=== FILE: fonts.dfy ===
/**
 Font resources of the render context (SkiaRenderContext.cs): the typeface and
 shaper caches keyed by font descriptor, the lookup-or-create of the text paint,
 the embedded-font fallback naming rule, and disposal of the caches.

 The font system itself (resolving a family name, the embedded resource
 names, font metrics, glyph advances, plain text widths and line splitting)
 is an input, `FontSystem`.
 */
module Fonts {
  import opened Numeric
  import opened Types
  import opened Canvas
  import opened Snapping

  /** A cache key: family (null allowed) and weight, equal when both are equal. */
  datatype FontDescriptor = FontDescriptor(family: Option<string>, weight: real)

  /** Ascent (negative, above the baseline), descent and line spacing in device pixels. */
  datatype FontMetrics = FontMetrics(ascent: real, descent: real, lineSpacing: real)

  /** What the font libraries answer, taken as given. */
  datatype FontSystem = FontSystem(
    /** Family name of the typeface the font manager returns for a family and integer weight. */
    familyNameFor: (Option<string>, int) -> string,
    /** Names of the embedded resources of the entry assembly, in enumeration order. */
    resourceNames: seq<string>,
    /** Metrics of a typeface at a text size. */
    metrics: (Typeface, real) -> FontMetrics,
    /** Glyph x-advances of a shaped string, in the shaper's 512-unit scale. */
    glyphAdvances: (Typeface, string) -> seq<int>,
    /** Width the paint measures for a string without shaping. */
    plainWidth: (Typeface, real, string) -> real,
    /** Splits text into lines at line breaks. */
    splitLines: string -> seq<string>)

  /** The two caches, and how many native font objects have been constructed. */
  datatype FontCache = FontCache(
    typefaces: map<FontDescriptor, Typeface>,
    shapers: map<FontDescriptor, Shaper>,
    created: nat)
  {
    /** Every shaper was built for the typeface cached under its key, and
        every cached object was constructed before the current count. */
    predicate Valid()
    {
      && (forall d :: d in shapers ==> d in typefaces && shapers[d].typeface == typefaces[d])
      && (forall d :: d in typefaces ==> typefaces[d].id < created)
      && (forall d :: d in shapers ==> shapers[d].id < created)
    }
  }

  const EmptyCache := FontCache(map[], map[], 0)

  /** The text a possibly-null string contributes to interpolation and concatenation. */
  function FamilyText(family: Option<string>): string
  {
    if family.Some? then family.value else ""
  }

  /** FontWeightToString. */
  const FontWeightNames: map<int, string> := map[
    100 := "Thin",
    200 := "ExtraLight",
    300 := "Light",
    400 := "Regular",
    500 := "Medium",
    600 := "SemiBold",
    700 := "Bold",
    800 := "ExtraBold",
    900 := "Black"]

  /** The weight name of a (truncated) weight; unmapped weights use "Regular". */
  function WeightName(weight: real): string
  {
    var w := Trunc(weight);
    if w in FontWeightNames then FontWeightNames[w] else "Regular"
  }

  /** "Regular" is the name of weight 400 and of every weight outside the table;
      the table covers exactly the hundreds from 100 to 900. */
  lemma WeightNameRegular(weight: real)
    ensures WeightName(weight) == "Regular" <==>
      Trunc(weight) == 400 || !(100 <= Trunc(weight) <= 900 && Trunc(weight) % 100 == 0)
  {
    var w := Trunc(weight);
    if 100 <= w <= 900 && w % 100 == 0 {
      assert w in {100, 200, 300, 400, 500, 600, 700, 800, 900};
    }
  }

  predicate IsUpper(c: char)
  {
    'A' <= c <= 'Z'
  }

  /** ASCII lower-casing of one character. */
  function LowerChar(c: char): (l: char)
    ensures !IsUpper(l)
    ensures IsUpper(c) ==> l as int == c as int + 32
    ensures !IsUpper(c) ==> l == c
  {
    if IsUpper(c) then (c as int + 32) as char else c
  }

  function Lower(s: string): (r: string)
    ensures |r| == |s|
    ensures forall i :: 0 <= i < |s| ==> r[i] == LowerChar(s[i])
  {
    seq(|s|, i requires 0 <= i < |s| => LowerChar(s[i]))
  }

  predicate EndsWith(s: string, suffix: string)
  {
    |suffix| <= |s| && s[|s| - |suffix|..] == suffix
  }

  /** The first suffix tried: `{family}-{weight name}.ttf`, lower-cased. */
  function PrimarySuffix(family: Option<string>, weight: real): string
  {
    Lower(FamilyText(family) + "-" + WeightName(weight) + ".ttf")
  }

  /** The second suffix tried: `{family}.ttf`, NOT lower-cased. */
  function SecondarySuffix(family: Option<string>): string
  {
    FamilyText(family) + ".ttf"
  }

  /** A resource name matches a suffix when its lower-cased form ends with it. */
  predicate NameMatches(name: string, suffix: string)
  {
    EndsWith(Lower(name), suffix)
  }

  /** `a` can be obtained from `b` by deleting elements: its elements occur
      in `b` in the same order. */
  predicate IsSubsequence(a: seq<string>, b: seq<string>)
    decreases |b|
  {
    if |a| == 0 then true
    else if |b| == 0 then false
    else if a[|a| - 1] == b[|b| - 1] then IsSubsequence(a[..|a| - 1], b[..|b| - 1])
    else IsSubsequence(a, b[..|b| - 1])
  }

  /** The resources whose lower-cased name ends with the suffix, in order. */
  function MatchingResources(names: seq<string>, suffix: string): (r: seq<string>)
    ensures forall x :: x in r <==> x in names && NameMatches(x, suffix)
    ensures IsSubsequence(r, names)
    ensures |r| <= |names|
    ensures (forall x :: x in names ==> !NameMatches(x, suffix)) ==> r == []
  {
    if |names| == 0 then []
    else
      var init := names[..|names| - 1];
      var last := names[|names| - 1];
      var rest := MatchingResources(init, suffix);
      assert forall x :: x in names <==> x in init || x == last;
      if NameMatches(last, suffix) then
        assert (rest + [last])[..|rest|] == rest;
        rest + [last]
      else
        assert |rest| > 0 ==> rest[|rest| - 1] in rest;
        rest
  }

  /** Index of the last resource that matches, or -1 when none does. */
  function LastMatchIndex(names: seq<string>, suffix: string): (k: int)
    ensures -1 <= k < |names|
    ensures k >= 0 ==> NameMatches(names[k], suffix)
    ensures forall j :: k < j < |names| ==> !NameMatches(names[j], suffix)
  {
    if |names| == 0 then -1
    else if NameMatches(names[|names| - 1], suffix) then |names| - 1
    else LastMatchIndex(names[..|names| - 1], suffix)
  }

  /** When several resources match, the list the fallback walks ends with the
      matching resource that comes last in enumeration order. */
  lemma {:induction false} LastMatchIsLastMatching(names: seq<string>, suffix: string)
    ensures var r := MatchingResources(names, suffix);
      (|r| > 0 <==> LastMatchIndex(names, suffix) >= 0)
      && (|r| > 0 ==> r[|r| - 1] == names[LastMatchIndex(names, suffix)])
    decreases |names|
  {
    if |names| > 0 {
      var init := names[..|names| - 1];
      var last := names[|names| - 1];
      if NameMatches(last, suffix) {
        assert MatchingResources(names, suffix) == MatchingResources(init, suffix) + [last];
        assert LastMatchIndex(names, suffix) == |names| - 1;
      } else {
        assert MatchingResources(names, suffix) == MatchingResources(init, suffix);
        assert LastMatchIndex(names, suffix) == LastMatchIndex(init, suffix);
        LastMatchIsLastMatching(init, suffix);
        var k := LastMatchIndex(init, suffix);
        assert k >= 0 ==> init[k] == names[k];
      }
    }
  }

  /** The resources the fallback loads, in order: the primary matches, or when
      there are none, the secondary matches. */
  function FallbackMatches(names: seq<string>, family: Option<string>, weight: real): (r: seq<string>)
    ensures IsSubsequence(r, names)
    ensures (exists x :: x in names && NameMatches(x, PrimarySuffix(family, weight))) ==>
      forall x :: x in r <==> x in names && NameMatches(x, PrimarySuffix(family, weight))
    ensures (forall x :: x in names ==> !NameMatches(x, PrimarySuffix(family, weight))) ==>
      forall x :: x in r <==> x in names && NameMatches(x, SecondarySuffix(family))
  {
    var primary := MatchingResources(names, PrimarySuffix(family, weight));
    if |primary| > 0 then primary else MatchingResources(names, SecondarySuffix(family))
  }

  /** Since lower-cased names hold no upper-case letter, a family with an
      upper-case letter never matches the un-lowered secondary suffix. */
  lemma SecondarySuffixIsCaseSensitive(names: seq<string>, family: Option<string>, p: nat)
    requires p < |FamilyText(family)| && IsUpper(FamilyText(family)[p])
    ensures MatchingResources(names, SecondarySuffix(family)) == []
  {
    var suffix := SecondarySuffix(family);
    assert suffix[p] == FamilyText(family)[p];
    forall x | x in names
      ensures !NameMatches(x, suffix)
    {
      UpperSuffixNeverMatches(x, suffix, p);
    }
  }

  lemma UpperSuffixNeverMatches(name: string, suffix: string, p: nat)
    requires p < |suffix| && IsUpper(suffix[p])
    ensures !NameMatches(name, suffix)
  {
    var l := Lower(name);
    if |suffix| <= |l| {
      var k := |l| - |suffix| + p;
      assert l[|l| - |suffix|..][p] == l[k] == LowerChar(name[k]);
    }
  }

  /** A suffix longer than the name never matches. */
  lemma LongSuffixNeverMatches(names: seq<string>, suffix: string)
    requires forall x :: x in names ==> |x| < |suffix|
    ensures MatchingResources(names, suffix) == []
  {
  }

  /** Lower-casing on the example resource name and family file name. */
  lemma LowerRobotoNames()
    ensures Lower("Fonts.Roboto.ttf") == "fonts.roboto.ttf"
    ensures Lower("Roboto.ttf") == "roboto.ttf"
  {
    var n, l := "Fonts.Roboto.ttf", "fonts.roboto.ttf";
    assert forall i :: 0 <= i < |n| ==> LowerChar(n[i]) == l[i];
    var f, g := "Roboto.ttf", "roboto.ttf";
    assert forall i :: 0 <= i < |f| ==> LowerChar(f[i]) == g[i];
  }

  /** The primary suffix for "Roboto" at weight 400, "roboto-regular.ttf",
      is longer than "Fonts.Roboto.ttf". */
  lemma RobotoPrimarySuffixLength()
    ensures |PrimarySuffix(Some("Roboto"), 400.0)| == 18
  {
    assert Trunc(400.0) == 400;
    assert WeightName(400.0) == "Regular";
  }

  /** "Fonts.Roboto.ttf" ends with "Roboto.ttf" once both are lower-cased. */
  lemma RobotoMatchesIgnoringCase()
    ensures EndsWith(Lower("Fonts.Roboto.ttf"), Lower(SecondarySuffix(Some("Roboto"))))
  {
    LowerRobotoNames();
    assert SecondarySuffix(Some("Roboto")) == "Roboto.ttf";
    assert "fonts.roboto.ttf"[6..] == "roboto.ttf";
  }

  /** The family "Roboto" with only the resource "Fonts.Roboto.ttf": the
      primary suffix "roboto-regular.ttf" is longer than the name, the
      secondary suffix "Roboto.ttf" is compared against "fonts.roboto.ttf"
      and does not match either, so no embedded font is loaded, although a
      case-insensitive comparison would have found it. */
  lemma RobotoResourceIsMissed()
    ensures FallbackMatches(["Fonts.Roboto.ttf"], Some("Roboto"), 400.0) == []
    ensures EndsWith(Lower("Fonts.Roboto.ttf"), Lower(SecondarySuffix(Some("Roboto"))))
  {
    RobotoPrimarySuffixLength();
    LongSuffixNeverMatches(["Fonts.Roboto.ttf"], PrimarySuffix(Some("Roboto"), 400.0));
    SecondarySuffixIsCaseSensitive(["Fonts.Roboto.ttf"], Some("Roboto"), 0);
    RobotoMatchesIgnoringCase();
  }

  /** Constructs the typeface for a cache miss: the font manager's answer, or,
      when its family differs from the requested one, the last embedded
      resource the fallback matches. Every construction takes the next id. */
  function CreateTypeface(fs: FontSystem, created: nat, family: Option<string>, weight: real): (r: (Typeface, nat))
    ensures r.1 > created && r.0.id == r.1 - 1
    ensures Some(fs.familyNameFor(family, Trunc(weight))) == family ==>
      r.0.origin == SystemFamily(fs.familyNameFor(family, Trunc(weight))) && r.1 == created + 1
    ensures r.0.origin.EmbeddedResource? ==>
      var matches := FallbackMatches(fs.resourceNames, family, weight);
      Some(fs.familyNameFor(family, Trunc(weight))) != family
      && |matches| > 0
      && r.0.origin.resourceName == matches[|matches| - 1]
      && r.1 == created + 1 + |matches|
    ensures r.0.origin.SystemFamily? ==>
      r.0.origin.familyName == fs.familyNameFor(family, Trunc(weight)) && r.1 == created + 1
    ensures var matches := FallbackMatches(fs.resourceNames, family, weight);
      Some(fs.familyNameFor(family, Trunc(weight))) != family && |matches| > 0 ==>
        r.0.origin == EmbeddedResource(matches[|matches| - 1])
    ensures var matches := FallbackMatches(fs.resourceNames, family, weight);
      Some(fs.familyNameFor(family, Trunc(weight))) != family && |matches| == 0 ==>
        r.0.origin == SystemFamily(fs.familyNameFor(family, Trunc(weight)))
  {
    var resolved := fs.familyNameFor(family, Trunc(weight));
    var system := Typeface(created, SystemFamily(resolved));
    if Some(resolved) == family then (system, created + 1)
    else
      var matches := FallbackMatches(fs.resourceNames, family, weight);
      if |matches| == 0 then (system, created + 1)
      else (Typeface(created + |matches|, EmbeddedResource(matches[|matches| - 1])), created + 1 + |matches|)
  }

  /** A typeface comes from an embedded resource exactly when the font
      manager resolves a different family and some resource name, lower-cased,
      ends with the primary suffix or with the secondary suffix. */
  lemma EmbeddedFallbackIff(fs: FontSystem, created: nat, family: Option<string>, weight: real)
    ensures CreateTypeface(fs, created, family, weight).0.origin.EmbeddedResource? <==>
      && Some(fs.familyNameFor(family, Trunc(weight))) != family
      && exists x :: x in fs.resourceNames &&
           (NameMatches(x, PrimarySuffix(family, weight)) || NameMatches(x, SecondarySuffix(family)))
  {
    var matches := FallbackMatches(fs.resourceNames, family, weight);
    if exists x :: x in fs.resourceNames &&
         (NameMatches(x, PrimarySuffix(family, weight)) || NameMatches(x, SecondarySuffix(family)))
    {
      var x :| x in fs.resourceNames &&
        (NameMatches(x, PrimarySuffix(family, weight)) || NameMatches(x, SecondarySuffix(family)));
      if exists y :: y in fs.resourceNames && NameMatches(y, PrimarySuffix(family, weight)) {
        var y :| y in fs.resourceNames && NameMatches(y, PrimarySuffix(family, weight));
        assert y in matches;
      } else {
        assert x in matches;
      }
    } else {
      assert forall x :: x in fs.resourceNames ==> !NameMatches(x, PrimarySuffix(family, weight));
      assert |matches| > 0 ==> matches[0] in matches;
    }
  }

  /** The result of a text-paint lookup. */
  datatype TextPaintLookup = TextPaintLookup(cache: FontCache, style: TextStyle, shaper: Option<Shaper>)

  /** GetTextPaint: look up or create the typeface (and, with shaping, the
      shaper) for the descriptor, and set up the shared paint for text. */
  function GetTextPaint(
    s: Settings, fs: FontSystem, c: FontCache, family: Option<string>, fontSize: real,
    weight: real): (r: TextPaintLookup)
    ensures var key := FontDescriptor(family, weight);
      && key in r.cache.typefaces
      && r.style.typeface == r.cache.typefaces[key]
      && r.cache.typefaces.Keys == c.typefaces.Keys + {key}
      && (forall d :: d in c.typefaces ==> r.cache.typefaces[d] == c.typefaces[d])
      && (key in c.typefaces ==> r.style.typeface == c.typefaces[key])
      && (key !in c.typefaces ==>
            && r.style.typeface == CreateTypeface(fs, c.created, family, weight).0
            && r.cache.created >= CreateTypeface(fs, c.created, family, weight).1)
      && (s.useTextShaping <==> r.shaper.Some?)
      && (s.useTextShaping ==> key in r.cache.shapers && r.shaper.value == r.cache.shapers[key])
      && r.cache.shapers.Keys == c.shapers.Keys + (if s.useTextShaping then {key} else {})
      && (forall d :: d in c.shapers ==> r.cache.shapers[d] == c.shapers[d])
      && (key in c.typefaces && (s.useTextShaping ==> key in c.shapers) ==> r.cache == c)
      && r.cache.created >= c.created
    ensures c.Valid() ==> r.cache.Valid()
    ensures c.Valid() && r.shaper.Some? ==> r.shaper.value.typeface == r.style.typeface
    ensures r.style.textSize == Convert(s, fontSize) && r.style.antialias
    ensures r.style.fullHinting == s.RendersToScreen() && r.style.subpixelText == s.RendersToScreen()
  {
    var key := FontDescriptor(family, weight);
    var made := if key in c.typefaces then (c.typefaces[key], c.created) else CreateTypeface(fs, c.created, family, weight);
    var typeface := made.0;
    var c1 := FontCache(c.typefaces[key := typeface], c.shapers, made.1);
    var style := TextStyle(typeface, Convert(s, fontSize), true, s.RendersToScreen(), s.RendersToScreen());
    if s.useTextShaping then
      if key in c.shapers then TextPaintLookup(c1, style, Some(c.shapers[key]))
      else
        var shaper := Shaper(c1.created, typeface);
        TextPaintLookup(c1.(shapers := c.shapers[key := shaper], created := c1.created + 1), style, Some(shaper))
    else TextPaintLookup(c1, style, None)
  }

  /** A second lookup of the same descriptor finds both objects cached:
      it constructs nothing and returns the same typeface and shaper. */
  lemma GetTextPaintRepeat(
    s: Settings, fs: FontSystem, c: FontCache, family: Option<string>, fontSize: real, weight: real)
    ensures var r1 := GetTextPaint(s, fs, c, family, fontSize, weight);
      var r2 := GetTextPaint(s, fs, r1.cache, family, fontSize, weight);
      r2.cache == r1.cache && r2.style == r1.style && r2.shaper == r1.shaper
  {
  }

  /** The cache after a sequence of lookups with the same settings. */
  function GetTextPaints(s: Settings, fs: FontSystem, c: FontCache, requests: seq<FontDescriptor>): FontCache
    decreases |requests|
  {
    if |requests| == 0 then c
    else
      var r := GetTextPaint(s, fs, c, requests[0].family, 10.0, requests[0].weight);
      GetTextPaints(s, fs, r.cache, requests[1..])
  }

  /** After any sequence of lookups, the typeface cache holds exactly the keys
      it held before plus the requested descriptors, and keeps its old entries. */
  lemma {:induction false} GetTextPaintsKeys(s: Settings, fs: FontSystem, c: FontCache, requests: seq<FontDescriptor>)
    ensures var c' := GetTextPaints(s, fs, c, requests);
      && (forall d :: d in c'.typefaces <==> d in c.typefaces || d in requests)
      && (forall d :: d in c.typefaces ==> c'.typefaces[d] == c.typefaces[d])
    decreases |requests|
  {
    if |requests| > 0 {
      var r := GetTextPaint(s, fs, c, requests[0].family, 10.0, requests[0].weight);
      GetTextPaintsKeys(s, fs, r.cache, requests[1..]);
      assert forall d :: d in requests <==> d == requests[0] || d in requests[1..];
    }
  }

  /** One release performed by Dispose. */
  datatype Release =
    | ReleaseTypeface(key: FontDescriptor, typeface: Typeface)
    | ReleaseShaper(key: FontDescriptor, shaper: Shaper)

  /** Releases every cached typeface once, in some order of the keys. */
  method ReleaseTypefaces(m: map<FontDescriptor, Typeface>) returns (log: seq<Release>)
    ensures |log| == |m|
    ensures forall d :: d in m ==> ReleaseTypeface(d, m[d]) in log
    ensures forall i :: 0 <= i < |log| ==> log[i].ReleaseTypeface? && log[i].key in m
    ensures forall i, j :: 0 <= i < j < |log| ==> log[i].key != log[j].key
  {
    var remaining := m.Keys;
    log := [];
    while remaining != {}
      invariant remaining <= m.Keys
      invariant |log| + |remaining| == |m.Keys|
      invariant forall d :: d in m.Keys - remaining ==> ReleaseTypeface(d, m[d]) in log
      invariant forall i :: 0 <= i < |log| ==> log[i].ReleaseTypeface? && log[i].key in m.Keys - remaining
      invariant forall i, j :: 0 <= i < j < |log| ==> log[i].key != log[j].key
      decreases |remaining|
    {
      var d :| d in remaining;
      log := log + [ReleaseTypeface(d, m[d])];
      remaining := remaining - {d};
    }
  }

  /** Releases every cached shaper once, in some order of the keys. */
  method ReleaseShapers(m: map<FontDescriptor, Shaper>) returns (log: seq<Release>)
    ensures |log| == |m|
    ensures forall d :: d in m ==> ReleaseShaper(d, m[d]) in log
    ensures forall i :: 0 <= i < |log| ==> log[i].ReleaseShaper? && log[i].key in m
    ensures forall i, j :: 0 <= i < j < |log| ==> log[i].key != log[j].key
  {
    var remaining := m.Keys;
    log := [];
    while remaining != {}
      invariant remaining <= m.Keys
      invariant |log| + |remaining| == |m.Keys|
      invariant forall d :: d in m.Keys - remaining ==> ReleaseShaper(d, m[d]) in log
      invariant forall i :: 0 <= i < |log| ==> log[i].ReleaseShaper? && log[i].key in m.Keys - remaining
      invariant forall i, j :: 0 <= i < j < |log| ==> log[i].key != log[j].key
      decreases |remaining|
    {
      var d :| d in remaining;
      log := log + [ReleaseShaper(d, m[d])];
      remaining := remaining - {d};
    }
  }

  /** Dispose: releases every cached typeface, then every cached shaper, each
      exactly once, and leaves both caches empty; on empty caches it releases nothing. */
  method Dispose(c: FontCache) returns (c': FontCache, released: seq<Release>)
    ensures c'.typefaces == map[] && c'.shapers == map[] && c'.created == c.created
    ensures |released| == |c.typefaces| + |c.shapers|
    ensures forall d :: d in c.typefaces ==> ReleaseTypeface(d, c.typefaces[d]) in released
    ensures forall d :: d in c.shapers ==> ReleaseShaper(d, c.shapers[d]) in released
    ensures forall i, j :: 0 <= i < j < |released| ==> released[i] != released[j]
    ensures forall i, j :: 0 <= i < j < |released| && released[i].ReleaseShaper? ==> released[j].ReleaseShaper?
    ensures c.typefaces == map[] && c.shapers == map[] ==> released == []
  {
    var typefaceLog := ReleaseTypefaces(c.typefaces);
    var shaperLog := ReleaseShapers(c.shapers);
    released := typefaceLog + shaperLog;
    c' := c.(typefaces := map[], shapers := map[]);
  }
}

=== FILE: input.dfy ===
/**
 Translation of browser pointer events into the plot library's input
 arguments (EventArgsConversionUtil.cs): the mouse button, the CSS cursor name
 of a cursor type, the modifier-key flags, and the mouse-down and wheel
 arguments.
 */
module Input {
  import opened Numeric
  import Types

  /** The plot library's mouse buttons. */
  datatype MouseButton = None | Left | Middle | Right | XButton1 | XButton2

  /** The plot library's cursor types; `OtherCursor` is any value outside the named members. */
  datatype CursorType = Default | Pan | ZoomRectangle | ZoomHorizontal | ZoomVertical | OtherCursor(code: int)

  /** One modifier flag. */
  datatype ModifierKey = Shift | Alt | Control | Windows

  /** The browser's mouse event: offsets within the element, the click count
      (`detail`, a 64-bit integer), the button code and the key states. */
  datatype MouseEventArgs = MouseEventArgs(
    offsetX: real,
    offsetY: real,
    detail: int,
    button: int,
    shiftKey: bool,
    altKey: bool,
    ctrlKey: bool,
    metaKey: bool)

  /** The browser's wheel event: a mouse event plus the scroll deltas. */
  datatype WheelEventArgs = WheelEventArgs(mouse: MouseEventArgs, deltaX: real, deltaY: real)

  /** The plot library's mouse-down arguments. */
  datatype MouseDownArgs = MouseDownArgs(
    position: Types.ScreenPoint,
    clickCount: int,
    changedButton: MouseButton,
    modifierKeys: set<ModifierKey>)

  /** The plot library's wheel arguments. */
  datatype MouseWheelArgs = MouseWheelArgs(position: Types.ScreenPoint, delta: int, modifierKeys: set<ModifierKey>)

  /** The browser's button code of a plot-library button, where it has one
      that the translation recognises. */
  function ButtonCode(b: MouseButton): Types.Option<int>
  {
    match b
    case Left => Types.Some(0)
    case Middle => Types.Some(1)
    case Right => Types.Some(2)
    case _ => Types.None
  }

  /** OxyMouseButton: codes 0, 1 and 2 are the left, middle and right
      buttons, every other code is no button. */
  function ButtonFor(code: int): (b: MouseButton)
    ensures b != XButton1 && b != XButton2
    ensures b == None <==> code !in {0, 1, 2}
    ensures b != None ==> ButtonCode(b) == Types.Some(code)
  {
    match code
    case 0 => Left
    case 1 => Middle
    case 2 => Right
    case _ => None
  }

  /** Every button with a code comes back from its code. */
  lemma ButtonRoundTrip(b: MouseButton)
    requires ButtonCode(b).Some?
    ensures ButtonFor(ButtonCode(b).value) == b
  {
  }

  /** The CSS cursor names the translation produces. */
  const CursorNames: set<string> := {"default", "grabbing", "zoom-in", "col-resize", "row-resize"}

  /** TranslateCursorType: the CSS cursor for a cursor type; "default" for
      the default type and for any unnamed value. */
  function TranslateCursorType(c: CursorType): (name: string)
    ensures name in CursorNames
    ensures name == "default" <==> c == Default || c.OtherCursor?
    ensures c == Pan ==> name == "grabbing"
    ensures c == ZoomRectangle ==> name == "zoom-in"
    ensures c == ZoomHorizontal ==> name == "col-resize"
    ensures c == ZoomVertical ==> name == "row-resize"
  {
    match c
    case Pan => "grabbing"
    case ZoomRectangle => "zoom-in"
    case ZoomHorizontal => "col-resize"
    case ZoomVertical => "row-resize"
    case Default => "default"
    case OtherCursor(_) => "default"
  }

  /** Distinct named cursor types get distinct CSS cursors, and every CSS
      cursor of the translation is reached. */
  lemma CursorNamesDistinct(c: CursorType, d: CursorType)
    requires !c.OtherCursor? && !d.OtherCursor?
    ensures TranslateCursorType(c) == TranslateCursorType(d) ==> c == d
    ensures forall name :: name in CursorNames ==>
      exists e: CursorType :: !e.OtherCursor? && TranslateCursorType(e) == name
  {
    assert TranslateCursorType(Default) == "default";
    assert TranslateCursorType(Pan) == "grabbing";
    assert TranslateCursorType(ZoomRectangle) == "zoom-in";
    assert TranslateCursorType(ZoomHorizontal) == "col-resize";
    assert TranslateCursorType(ZoomVertical) == "row-resize";
  }

  /** Adds `key` to `flags` when `pressed`. */
  function WithFlag(flags: set<ModifierKey>, pressed: bool, key: ModifierKey): set<ModifierKey>
  {
    if pressed then flags + {key} else flags
  }

  /** OxyModifierKeys of a mouse event: starting from no flags, one flag per
      pressed key. */
  function ModifierKeys(args: MouseEventArgs): (flags: set<ModifierKey>)
    ensures Shift in flags <==> args.shiftKey
    ensures Alt in flags <==> args.altKey
    ensures Control in flags <==> args.ctrlKey
    ensures Windows in flags <==> args.metaKey
    ensures flags == {} <==> !(args.shiftKey || args.altKey || args.ctrlKey || args.metaKey)
  {
    var flags := WithFlag({}, args.shiftKey, Shift);
    var flags := WithFlag(flags, args.altKey, Alt);
    var flags := WithFlag(flags, args.ctrlKey, Control);
    WithFlag(flags, args.metaKey, Windows)
  }

  /** The modifier flags are determined by the four key states alone. */
  lemma ModifierKeysDependOnKeysOnly(a: MouseEventArgs, b: MouseEventArgs)
    requires a.shiftKey == b.shiftKey && a.altKey == b.altKey && a.ctrlKey == b.ctrlKey && a.metaKey == b.metaKey
    ensures ModifierKeys(a) == ModifierKeys(b)
  {
  }

  /** OxyModifierKeys of a wheel event: one flag per key pressed during the
      wheel's underlying mouse event. */
  function WheelModifierKeys(args: WheelEventArgs): (flags: set<ModifierKey>)
    ensures Shift in flags <==> args.mouse.shiftKey
    ensures Alt in flags <==> args.mouse.altKey
    ensures Control in flags <==> args.mouse.ctrlKey
    ensures Windows in flags <==> args.mouse.metaKey
    ensures flags <= {Shift, Alt, Control, Windows}
  {
    ModifierKeys(args.mouse)
  }

  /** OxyMouseEventArgs: the mouse-down arguments of a browser mouse event,
      with the click count cast to a 32-bit integer. */
  function MouseDown(args: MouseEventArgs): (r: MouseDownArgs)
    ensures r.position == Types.ScreenPoint(args.offsetX, args.offsetY)
    ensures -0x8000_0000 <= r.clickCount < 0x8000_0000
    ensures (args.detail - r.clickCount) % 0x1_0000_0000 == 0
    ensures 0 <= args.detail < 0x8000_0000 ==> r.clickCount == args.detail
    ensures r.changedButton == ButtonFor(args.button)
    ensures r.modifierKeys == ModifierKeys(args)
  {
    MouseDownArgs(Types.ScreenPoint(args.offsetX, args.offsetY), Wrap32(args.detail), ButtonFor(args.button), ModifierKeys(args))
  }

  /** The scroll amount the wheel translation uses: the negated vertical
      delta, or the horizontal delta when there is no vertical scroll. */
  function WheelAmount(args: WheelEventArgs): real
  {
    if args.deltaY != 0.0 then -args.deltaY else args.deltaX
  }

  /** OxyMouseWheelEventArgs: the wheel arguments, with the scroll amount
      truncated toward zero. */
  function MouseWheel(args: WheelEventArgs): (r: MouseWheelArgs)
    ensures r.position == Types.ScreenPoint(args.mouse.offsetX, args.mouse.offsetY)
    ensures r.modifierKeys == ModifierKeys(args.mouse)
    ensures args.deltaY > 0.0 ==> -args.deltaY <= r.delta as real <= 0.0 && r.delta as real - 1.0 < -args.deltaY
    ensures args.deltaY < 0.0 ==> 0.0 <= r.delta as real <= -args.deltaY < r.delta as real + 1.0
    ensures args.deltaY == 0.0 && args.deltaX >= 0.0 ==> 0.0 <= r.delta as real <= args.deltaX < r.delta as real + 1.0
    ensures args.deltaY == 0.0 && args.deltaX < 0.0 ==> args.deltaX <= r.delta as real <= 0.0 && r.delta as real - 1.0 < args.deltaX
  {
    MouseWheelArgs(Types.ScreenPoint(args.mouse.offsetX, args.mouse.offsetY), Trunc(WheelAmount(args)), WheelModifierKeys(args))
  }

  /** Whole-number scroll deltas pass through unchanged (negated when vertical). */
  lemma WholeDeltasPassThrough(args: WheelEventArgs, n: int)
    requires args.deltaY == n as real && n != 0
    ensures MouseWheel(args).delta == -n
  {
  }
}

=== FILE: numeric.dfy ===
/**
 Real-number stand-ins for the floating-point and integer conversions the
 render context relies on: rounding half away from zero, truncation toward
 zero, the truncating remainder of C#'s `%`, the 32-bit wrap of a `long` to
 `int` cast, and the sums and maxima used by text measurement.
 */
module Numeric {

  /** Rounds to the nearest integer, ties away from zero
      (Math.Round with MidpointRounding.AwayFromZero). */
  function RoundAway(x: real): (n: int)
    ensures -0.5 <= n as real - x <= 0.5
    ensures n as real - x == 0.5 ==> x > 0.0
    ensures x - n as real == 0.5 ==> x < 0.0
  {
    if x >= 0.0 then (x + 0.5).Floor else -((-x + 0.5).Floor)
  }

  /** An integral value rounds to itself. */
  lemma RoundAwayOfInteger(n: int)
    ensures RoundAway(n as real) == n
  {
    if n >= 0 {
      assert (n as real + 0.5).Floor == n;
    } else {
      assert (-(n as real) + 0.5).Floor == -n;
    }
  }

  /** Rounding half away from zero is symmetric about zero. */
  lemma RoundAwayIsOdd(x: real)
    ensures RoundAway(-x) == -RoundAway(x)
  {
  }

  /** Truncation toward zero, the C# `(int)` cast of a floating-point value
      (values outside the `int` range are not modelled). */
  function Trunc(x: real): (t: int)
    ensures x >= 0.0 ==> 0.0 <= t as real <= x < t as real + 1.0
    ensures x < 0.0 ==> x <= t as real <= 0.0 && t as real - 1.0 < x
  {
    if x >= 0.0 then x.Floor else -((-x).Floor)
  }

  /** `x % 2` in C# on a floating-point value: the remainder takes the sign of
      the dividend, unlike Dafny's Euclidean `%`. */
  function RemTwo(x: real): (r: real)
    ensures x >= 0.0 ==> 0.0 <= r < 2.0
    ensures x < 0.0 ==> -2.0 < r <= 0.0
    ensures IsIntegral((x - r) / 2.0)
  {
    x - 2.0 * Trunc(x / 2.0) as real
  }

  /** A real with no fractional part. */
  predicate IsIntegral(x: real)
  {
    x.Floor as real == x
  }

  /** The C# `(int)` cast of a `long`: keeps the low 32 bits, read as a signed value. */
  function Wrap32(n: int): (w: int)
    ensures -0x8000_0000 <= w < 0x8000_0000
    ensures (n - w) % 0x1_0000_0000 == 0
    ensures -0x8000_0000 <= n < 0x8000_0000 ==> w == n
  {
    (n + 0x8000_0000) % 0x1_0000_0000 - 0x8000_0000
  }

  /** Sum of a sequence of integers (LINQ `Sum`). */
  function Sum(xs: seq<int>): int
  {
    if |xs| == 0 then 0 else Sum(xs[..|xs| - 1]) + xs[|xs| - 1]
  }

  /** Sum distributes over concatenation. */
  lemma {:induction false} SumAppend(xs: seq<int>, ys: seq<int>)
    ensures Sum(xs + ys) == Sum(xs) + Sum(ys)
    decreases |ys|
  {
    if |ys| == 0 {
      assert xs + ys == xs;
    } else {
      var ys' := ys[..|ys| - 1];
      assert (xs + ys)[..|xs + ys| - 1] == xs + ys';
      SumAppend(xs, ys');
    }
  }

  /** Largest element of a non-empty sequence (LINQ `Max`). */
  function MaxOf(xs: seq<real>): (m: real)
    requires |xs| > 0
    ensures m in xs
    ensures forall i :: 0 <= i < |xs| ==> xs[i] <= m
  {
    if |xs| == 1 then xs[0]
    else
      var rest := MaxOf(xs[1..]);
      assert forall i :: 1 <= i < |xs| ==> xs[i] == xs[1..][i - 1];
      if xs[0] >= rest then xs[0] else rest
  }
}

=== FILE: primitives.dfy ===
/**
 The drawing primitives of the render context (SkiaRenderContext.cs): each
 decides whether it issues a fill draw, a stroke draw, or nothing, and which
 device geometry it hands to the canvas.
 */
module Primitives {
  import opened Types
  import opened Canvas
  import opened Snapping

  /** A stroke is drawn when its colour is visible and its thickness positive. */
  predicate StrokeDrawn(stroke: OxyColor, thickness: real)
  {
    stroke.IsVisible() && thickness > 0.0
  }

  /** The shape of a fill-then-stroke trace: a fill draw exactly when the fill
      is drawn, followed by a stroke draw exactly when the stroke is drawn. */
  predicate FillThenStroke(ops: seq<CanvasOp>, fillDrawn: bool, strokeDrawn: bool)
  {
    && |ops| == (if fillDrawn then 1 else 0) + (if strokeDrawn then 1 else 0)
    && (fillDrawn ==> ops[0].IsFillDraw())
    && (strokeDrawn ==> ops[|ops| - 1].IsStrokeDraw())
  }

  /** Builds an open path through the points: a MoveTo to the first point,
      then a LineTo to each following point. */
  function AddPoints(points: seq<SkPoint>): (path: Path)
    ensures |path| == |points|
    ensures forall i :: 0 <= i < |path| ==> (path[i].MoveTo? <==> i == 0) && (path[i].LineTo? <==> i > 0)
    ensures |points| > 0 ==> path[0] == MoveTo(points[0])
    ensures forall i :: 0 < i < |points| ==> path[i] == LineTo(points[i])
  {
    if |points| == 0 then []
    else [MoveTo(points[0])] + seq(|points| - 1, i requires 0 <= i < |points| - 1 => LineTo(points[i + 1]))
  }

  /** The points a path visits through MoveTo and LineTo verbs, in order. */
  function PathPoints(path: Path): seq<SkPoint>
  {
    if |path| == 0 then []
    else if path[0].MoveTo? || path[0].LineTo? then [path[0].point] + PathPoints(path[1..])
    else PathPoints(path[1..])
  }

  /** The path AddPoints builds visits exactly the given points, in order. */
  lemma {:induction false} AddPointsVisitsPoints(points: seq<SkPoint>)
    ensures PathPoints(AddPoints(points)) == points
  {
    if |points| > 0 {
      LinesVisitPoints(points[1..]);
      assert AddPoints(points)[1..] == seq(|points[1..]|, i requires 0 <= i < |points[1..]| => LineTo(points[1..][i]));
    }
  }

  lemma {:induction false} LinesVisitPoints(points: seq<SkPoint>)
    ensures PathPoints(seq(|points|, i requires 0 <= i < |points| => LineTo(points[i]))) == points
  {
    if |points| > 0 {
      var lines := seq(|points|, i requires 0 <= i < |points| => LineTo(points[i]));
      assert lines[1..] == seq(|points[1..]|, i requires 0 <= i < |points[1..]| => LineTo(points[1..][i]));
      LinesVisitPoints(points[1..]);
    }
  }

  /** Number of Close verbs in a path. */
  function CountCloses(path: Path): nat
  {
    if |path| == 0 then 0 else (if path[0].Close? then 1 else 0) + CountCloses(path[1..])
  }

  lemma {:induction false} CountClosesAppend(a: Path, b: Path)
    ensures CountCloses(a + b) == CountCloses(a) + CountCloses(b)
  {
    if |a| == 0 {
      assert a + b == b;
    } else {
      assert (a + b)[1..] == a[1..] + b;
      CountClosesAppend(a[1..], b);
    }
  }

  /** AddPoints builds no Close verb. */
  lemma {:induction false} AddPointsIsOpen(points: seq<SkPoint>)
    ensures CountCloses(AddPoints(points)) == 0
    decreases |points|
  {
    var path := AddPoints(points);
    if |points| > 0 {
      assert path == AddPoints(points[..|points| - 1]) + [LineTo(points[|points| - 1])] || |points| == 1;
      if |points| > 1 {
        AddPointsIsOpen(points[..|points| - 1]);
        CountClosesAppend(AddPoints(points[..|points| - 1]), [LineTo(points[|points| - 1])]);
      }
    }
  }

  /** DrawEllipse. The early exit is written as SkiaRenderContext writes it: it leaves when the
      fill is invisible and the stroke is invisible with a positive thickness;
      the per-draw checks then decide what is drawn. */
  function DrawEllipse(
    s: Settings, extents: OxyRect, fill: OxyColor, stroke: OxyColor, thickness: real,
    mode: EdgeRenderingMode): (r: Outcome)
    ensures r.failure.None?
    ensures FillThenStroke(r.ops, fill.IsVisible(), StrokeDrawn(stroke, thickness))
    ensures fill.IsVisible() ==> r.ops[0].paint == FillPaintFor(fill, mode)
    ensures StrokeDrawn(stroke, thickness) ==> r.ops[|r.ops| - 1].paint == StrokePaintFor(s, stroke, thickness, mode)
    ensures forall i :: 0 <= i < |r.ops| ==> r.ops[i].DrawOval? && r.ops[i].oval == ConvertRect(s, extents)
  {
    if !fill.IsVisible() && !(stroke.IsVisible() || thickness <= 0.0) then NoOp
    else
      var rect := ConvertRect(s, extents);
      var fills := if fill.IsVisible() then [DrawOval(rect, FillPaintFor(fill, mode))] else [];
      var strokes :=
        if StrokeDrawn(stroke, thickness) then [DrawOval(rect, StrokePaintFor(s, stroke, thickness, mode))] else [];
      Outcome(fills + strokes, None)
  }

  /** DrawEllipses: one path holding every oval, filled and stroked once each. */
  function DrawEllipses(
    s: Settings, extents: seq<OxyRect>, fill: OxyColor, stroke: OxyColor, thickness: real,
    mode: EdgeRenderingMode): (r: Outcome)
    ensures r.failure.None?
    ensures FillThenStroke(r.ops, fill.IsVisible(), StrokeDrawn(stroke, thickness))
    ensures fill.IsVisible() ==> r.ops[0].paint == FillPaintFor(fill, mode)
    ensures StrokeDrawn(stroke, thickness) ==> r.ops[|r.ops| - 1].paint == StrokePaintFor(s, stroke, thickness, mode)
    ensures forall i :: 0 <= i < |r.ops| ==>
      && r.ops[i].DrawPath?
      && |r.ops[i].path| == |extents|
      && forall j :: 0 <= j < |extents| ==> r.ops[i].path[j] == AddOval(ConvertRect(s, extents[j]))
  {
    if !fill.IsVisible() && (!stroke.IsVisible() || thickness <= 0.0) then NoOp
    else
      var path := seq(|extents|, j requires 0 <= j < |extents| => AddOval(ConvertRect(s, extents[j])));
      var fills := if fill.IsVisible() then [DrawPath(path, FillPaintFor(fill, mode))] else [];
      var strokes :=
        if StrokeDrawn(stroke, thickness) then [DrawPath(path, StrokePaintFor(s, stroke, thickness, mode))] else [];
      Outcome(fills + strokes, None)
  }

  /** DrawRectangle: the actual (possibly snapped) rectangle, filled then stroked. */
  function DrawRectangle(
    s: Settings, rect: OxyRect, fill: OxyColor, stroke: OxyColor, thickness: real,
    mode: EdgeRenderingMode): (r: Outcome)
    ensures r.failure.None?
    ensures FillThenStroke(r.ops, fill.IsVisible(), StrokeDrawn(stroke, thickness))
    ensures fill.IsVisible() ==> r.ops[0].paint == FillPaintFor(fill, mode)
    ensures StrokeDrawn(stroke, thickness) ==> r.ops[|r.ops| - 1].paint == StrokePaintFor(s, stroke, thickness, mode)
    ensures forall i :: 0 <= i < |r.ops| ==>
      r.ops[i].DrawRect? && PlacedRect(s, rect, r.ops[i].rect, SnapsRectangles(s, mode), SnapOffsetFor(s, thickness, mode))
    ensures forall i, j :: 0 <= i < |r.ops| && 0 <= j < |r.ops| ==> r.ops[i].rect == r.ops[j].rect
  {
    if !fill.IsVisible() && !(stroke.IsVisible() || thickness <= 0.0) then NoOp
    else
      var actual := ActualRect(s, rect, thickness, mode);
      var fills := if fill.IsVisible() then [DrawRect(actual, FillPaintFor(fill, mode))] else [];
      var strokes :=
        if StrokeDrawn(stroke, thickness) then [DrawRect(actual, StrokePaintFor(s, stroke, thickness, mode))] else [];
      Outcome(fills + strokes, None)
  }

  /** DrawRectangles: one path holding every actual rectangle; nothing for an empty list. */
  function DrawRectangles(
    s: Settings, rects: seq<OxyRect>, fill: OxyColor, stroke: OxyColor, thickness: real,
    mode: EdgeRenderingMode): (r: Outcome)
    ensures r.failure.None?
    ensures |rects| == 0 ==> r.ops == []
    ensures |rects| > 0 ==> FillThenStroke(r.ops, fill.IsVisible(), StrokeDrawn(stroke, thickness))
    ensures |rects| > 0 && fill.IsVisible() ==> r.ops[0].paint == FillPaintFor(fill, mode)
    ensures |rects| > 0 && StrokeDrawn(stroke, thickness) ==>
      r.ops[|r.ops| - 1].paint == StrokePaintFor(s, stroke, thickness, mode)
    ensures forall i :: 0 <= i < |r.ops| ==>
      && r.ops[i].DrawPath?
      && |r.ops[i].path| == |rects|
      && forall j :: 0 <= j < |rects| ==>
        r.ops[i].path[j].AddRect?
        && PlacedRect(s, rects[j], r.ops[i].path[j].rect, SnapsRectangles(s, mode), SnapOffsetFor(s, thickness, mode))
  {
    if (!fill.IsVisible() && !(stroke.IsVisible() || thickness <= 0.0)) || |rects| == 0 then NoOp
    else
      var actual := ActualRects(s, rects, thickness, mode);
      var path := seq(|actual|, j requires 0 <= j < |actual| => AddRect(actual[j]));
      var fills := if fill.IsVisible() then [DrawPath(path, FillPaintFor(fill, mode))] else [];
      var strokes :=
        if StrokeDrawn(stroke, thickness) then [DrawPath(path, StrokePaintFor(s, stroke, thickness, mode))] else [];
      Outcome(fills + strokes, None)
  }

  /** DrawLine: one open path through the actual points, stroked with the line paint. */
  function DrawLine(
    s: Settings, points: seq<ScreenPoint>, stroke: OxyColor, thickness: real, mode: EdgeRenderingMode,
    dashArray: Option<seq<real>>, lineJoin: LineJoin, isStraight: seq<ScreenPoint> -> bool): (r: Outcome)
    ensures |points| < 2 || !StrokeDrawn(stroke, thickness) ==> r == NoOp
    ensures |points| >= 2 && StrokeDrawn(stroke, thickness) ==>
      && (r.failure.Some? <==> lineJoin.OtherJoin?)
      && (r.failure.Some? ==> r.failure == Some(ArgumentOutOfRange("lineJoin")))
      && (r.failure.Some? ==> r.ops == [])
      && (r.failure.None? ==>
        && |r.ops| == 1
        && r.ops[0].IsStrokeDraw()
        && r.ops[0].DrawPath?
        && r.ops[0].paint == LinePaintFor(s, stroke, thickness, mode, dashArray, lineJoin).value
        && r.ops[0].path == AddPoints(ActualPoints(s, points, thickness, mode, isStraight))
        && CountCloses(r.ops[0].path) == 0
        && PathPoints(r.ops[0].path) == ActualPoints(s, points, thickness, mode, isStraight))
  {
    if |points| < 2 || !stroke.IsVisible() || thickness <= 0.0 then NoOp
    else
      match LinePaintFor(s, stroke, thickness, mode, dashArray, lineJoin)
      case Failure(e) => Outcome([], Some(e))
      case Success(paint) =>
        var actual := ActualPoints(s, points, thickness, mode, isStraight);
        AddPointsVisitsPoints(actual);
        AddPointsIsOpen(actual);
        Outcome([DrawPath(AddPoints(actual), paint)], None)
  }

  /** The closed path of one polygon. */
  function PolygonPath(
    s: Settings, points: seq<ScreenPoint>, thickness: real, mode: EdgeRenderingMode,
    isStraight: seq<ScreenPoint> -> bool): (path: Path)
    ensures CountCloses(path) == 1
    ensures |path| == |points| + 1 && path[|path| - 1] == Close
    ensures |points| > 0 ==> path[0] == MoveTo(ActualPoints(s, points, thickness, mode, isStraight)[0])
    ensures forall i :: 0 < i < |points| ==> path[i] == LineTo(ActualPoints(s, points, thickness, mode, isStraight)[i])
    ensures PathPoints(path) == ActualPoints(s, points, thickness, mode, isStraight)
  {
    var actual := ActualPoints(s, points, thickness, mode, isStraight);
    AddPointsIsOpen(actual);
    AddPointsVisitsPoints(actual);
    CountClosesAppend(AddPoints(actual), [Close]);
    PathPointsAppendClose(AddPoints(actual));
    AddPoints(actual) + [Close]
  }

  lemma {:induction false} PathPointsAppendClose(path: Path)
    ensures PathPoints(path + [Close]) == PathPoints(path)
  {
    if |path| == 0 {
      assert PathPoints([Close]) == PathPoints([]);
    } else {
      assert (path + [Close])[1..] == path[1..] + [Close];
      PathPointsAppendClose(path[1..]);
    }
  }

  /** Fills the path when the fill is visible, then strokes it with the line
      paint when the stroke is drawn; an unnamed join raises after the fill. */
  function FillThenStrokePath(
    s: Settings, path: Path, fill: OxyColor, stroke: OxyColor, thickness: real,
    mode: EdgeRenderingMode, dashArray: Option<seq<real>>, lineJoin: LineJoin): (r: Outcome)
    ensures r.failure.Some? <==> StrokeDrawn(stroke, thickness) && lineJoin.OtherJoin?
    ensures r.failure.Some? ==> r.failure == Some(ArgumentOutOfRange("lineJoin"))
    ensures FillThenStroke(r.ops, fill.IsVisible(), StrokeDrawn(stroke, thickness) && r.failure.None?)
    ensures forall i :: 0 <= i < |r.ops| ==> r.ops[i].DrawPath? && r.ops[i].path == path
    ensures fill.IsVisible() ==> r.ops[0].paint == FillPaintFor(fill, mode)
    ensures StrokeDrawn(stroke, thickness) && r.failure.None? ==>
      r.ops[|r.ops| - 1].paint == LinePaintFor(s, stroke, thickness, mode, dashArray, lineJoin).value
  {
    var fills := if fill.IsVisible() then [DrawPath(path, FillPaintFor(fill, mode))] else [];
    if StrokeDrawn(stroke, thickness) then
      match LinePaintFor(s, stroke, thickness, mode, dashArray, lineJoin)
      case Failure(e) => Outcome(fills, Some(e))
      case Success(paint) => Outcome(fills + [DrawPath(path, paint)], None)
    else Outcome(fills, None)
  }

  /** DrawPolygon: a closed path through the actual points, filled then stroked
      with the line paint. An unnamed join raises after the fill is drawn. */
  function DrawPolygon(
    s: Settings, points: seq<ScreenPoint>, fill: OxyColor, stroke: OxyColor, thickness: real,
    mode: EdgeRenderingMode, dashArray: Option<seq<real>>, lineJoin: LineJoin,
    isStraight: seq<ScreenPoint> -> bool): (r: Outcome)
    ensures |points| < 2 ==> r == NoOp
    ensures r.failure.Some? <==> |points| >= 2 && StrokeDrawn(stroke, thickness) && lineJoin.OtherJoin?
    ensures r.failure.Some? ==> r.failure == Some(ArgumentOutOfRange("lineJoin"))
    ensures |points| >= 2 ==>
      FillThenStroke(r.ops, fill.IsVisible(), StrokeDrawn(stroke, thickness) && r.failure.None?)
    ensures |points| >= 2 && fill.IsVisible() ==> r.ops[0].paint == FillPaintFor(fill, mode)
    ensures |points| >= 2 && StrokeDrawn(stroke, thickness) && r.failure.None? ==>
      r.ops[|r.ops| - 1].paint == LinePaintFor(s, stroke, thickness, mode, dashArray, lineJoin).value
    ensures forall i :: 0 <= i < |r.ops| ==>
      r.ops[i].DrawPath? && r.ops[i].path == PolygonPath(s, points, thickness, mode, isStraight)
  {
    if (!fill.IsVisible() && !(stroke.IsVisible() || thickness <= 0.0)) || |points| < 2 then NoOp
    else
      var path := PolygonPath(s, points, thickness, mode, isStraight);
      FillThenStrokePath(s, path, fill, stroke, thickness, mode, dashArray, lineJoin)
  }

  /** The polygons DrawPolygons draws: those with at least two points, in order. */
  function Drawable(polygons: seq<seq<ScreenPoint>>): (r: seq<seq<ScreenPoint>>)
    ensures forall p :: p in r <==> p in polygons && |p| >= 2
    ensures |r| <= |polygons|
  {
    if |polygons| == 0 then []
    else
      assert forall p :: p in polygons <==> p == polygons[0] || p in polygons[1..];
      (if |polygons[0]| >= 2 then [polygons[0]] else []) + Drawable(polygons[1..])
  }

  /** The closed paths of the given polygons, one after another. */
  function ClosedPaths(
    s: Settings, polygons: seq<seq<ScreenPoint>>, thickness: real, mode: EdgeRenderingMode,
    isStraight: seq<ScreenPoint> -> bool): Path
  {
    if |polygons| == 0 then []
    else PolygonPath(s, polygons[0], thickness, mode, isStraight) + ClosedPaths(s, polygons[1..], thickness, mode, isStraight)
  }

  /** The actual points of the given polygons, one polygon after another. */
  function AllActualPoints(
    s: Settings, polygons: seq<seq<ScreenPoint>>, thickness: real, mode: EdgeRenderingMode,
    isStraight: seq<ScreenPoint> -> bool): seq<SkPoint>
  {
    if |polygons| == 0 then []
    else ActualPoints(s, polygons[0], thickness, mode, isStraight) + AllActualPoints(s, polygons[1..], thickness, mode, isStraight)
  }

  lemma {:induction false} PathPointsAppend(a: Path, b: Path)
    ensures PathPoints(a + b) == PathPoints(a) + PathPoints(b)
  {
    if |a| == 0 {
      assert a + b == b;
    } else {
      assert (a + b)[1..] == a[1..] + b;
      PathPointsAppend(a[1..], b);
    }
  }

  /** The compound path of DrawPolygons: the closed path of every polygon
      with at least two points, in order, the others skipped; so it holds
      one Close per drawn polygon and visits their actual points in order. */
  function PolygonsPath(
    s: Settings, polygons: seq<seq<ScreenPoint>>, thickness: real, mode: EdgeRenderingMode,
    isStraight: seq<ScreenPoint> -> bool): (path: Path)
    ensures path == ClosedPaths(s, Drawable(polygons), thickness, mode, isStraight)
    ensures CountCloses(path) == |Drawable(polygons)|
    ensures PathPoints(path) == AllActualPoints(s, Drawable(polygons), thickness, mode, isStraight)
  {
    if |polygons| == 0 then []
    else
      var rest := PolygonsPath(s, polygons[1..], thickness, mode, isStraight);
      if |polygons[0]| < 2 then
        assert Drawable(polygons) == Drawable(polygons[1..]);
        rest
      else
        var first := PolygonPath(s, polygons[0], thickness, mode, isStraight);
        var drawn := Drawable(polygons);
        assert drawn == [polygons[0]] + Drawable(polygons[1..]);
        assert drawn[0] == polygons[0] && drawn[1..] == Drawable(polygons[1..]);
        CountClosesAppend(first, rest);
        PathPointsAppend(first, rest);
        first + rest
  }

  /** DrawPolygons: one compound path, filled then stroked with the line paint. */
  function DrawPolygons(
    s: Settings, polygons: seq<seq<ScreenPoint>>, fill: OxyColor, stroke: OxyColor, thickness: real,
    mode: EdgeRenderingMode, dashArray: Option<seq<real>>, lineJoin: LineJoin,
    isStraight: seq<ScreenPoint> -> bool): (r: Outcome)
    ensures |polygons| == 0 ==> r == NoOp
    ensures r.failure.Some? <==> |polygons| > 0 && StrokeDrawn(stroke, thickness) && lineJoin.OtherJoin?
    ensures r.failure.Some? ==> r.failure == Some(ArgumentOutOfRange("lineJoin"))
    ensures |polygons| > 0 ==>
      FillThenStroke(r.ops, fill.IsVisible(), StrokeDrawn(stroke, thickness) && r.failure.None?)
    ensures |polygons| > 0 && fill.IsVisible() ==> r.ops[0].paint == FillPaintFor(fill, mode)
    ensures |polygons| > 0 && StrokeDrawn(stroke, thickness) && r.failure.None? ==>
      r.ops[|r.ops| - 1].paint == LinePaintFor(s, stroke, thickness, mode, dashArray, lineJoin).value
    ensures forall i :: 0 <= i < |r.ops| ==>
      r.ops[i].DrawPath? && r.ops[i].path == PolygonsPath(s, polygons, thickness, mode, isStraight)
  {
    if (!fill.IsVisible() && !(stroke.IsVisible() || thickness <= 0.0)) || |polygons| == 0 then NoOp
    else
      var path := PolygonsPath(s, polygons, thickness, mode, isStraight);
      FillThenStrokePath(s, path, fill, stroke, thickness, mode, dashArray, lineJoin)
  }

  /** The device points of one pair of DrawLineSegments: snapped when the pair is straight. */
  function SegmentPair(
    s: Settings, a: ScreenPoint, b: ScreenPoint, offset: real,
    isStraightPair: (ScreenPoint, ScreenPoint) -> bool): (r: (SkPoint, SkPoint))
    ensures PlacedPoint(s, a, r.0, isStraightPair(a, b), offset)
    ensures PlacedPoint(s, b, r.1, isStraightPair(a, b), offset)
  {
    if isStraightPair(a, b) then (ConvertSnapPoint(s, a, offset), ConvertSnapPoint(s, b, offset))
    else (ConvertPoint(s, a), ConvertPoint(s, b))
  }

  /** Slot i of the snapping branch's output: taken from pair (i - i % 2)
      alone, or left at the default point when that pair is incomplete. */
  function SegmentSlot(
    s: Settings, points: seq<ScreenPoint>, i: nat, offset: real,
    isStraightPair: (ScreenPoint, ScreenPoint) -> bool): SkPoint
  {
    var a := i - i % 2;
    if a + 1 < |points| then
      var pair := SegmentPair(s, points[a], points[a + 1], offset, isStraightPair);
      if i % 2 == 0 then pair.0 else pair.1
    else DefaultSkPoint
  }

  /** Each slot of the snapping branch depends only on its own input pair:
      two point lists that agree on that pair agree on the slot. */
  lemma SegmentSlotIsLocal(
    s: Settings, points: seq<ScreenPoint>, other: seq<ScreenPoint>, i: nat, offset: real,
    isStraightPair: (ScreenPoint, ScreenPoint) -> bool)
    requires i - i % 2 + 1 < |points| && i - i % 2 + 1 < |other|
    requires points[i - i % 2] == other[i - i % 2] && points[i - i % 2 + 1] == other[i - i % 2 + 1]
    ensures SegmentSlot(s, points, i, offset, isStraightPair) == SegmentSlot(s, other, i, offset, isStraightPair)
  {
  }

  /** The two slots of the complete pair starting at an even index. */
  lemma PairSlots(
    s: Settings, points: seq<ScreenPoint>, i: nat, offset: real,
    isStraightPair: (ScreenPoint, ScreenPoint) -> bool)
    requires i % 2 == 0 && i + 1 < |points|
    ensures var pair := SegmentPair(s, points[i], points[i + 1], offset, isStraightPair);
      && SegmentSlot(s, points, i, offset, isStraightPair) == pair.0
      && SegmentSlot(s, points, i + 1, offset, isStraightPair) == pair.1
  {
    assert (i + 1) % 2 == 1;
  }

  /** The first n slots of out are those of the snapping branch. */
  predicate SlotsUpTo(
    s: Settings, points: seq<ScreenPoint>, out: seq<SkPoint>, n: nat, offset: real,
    isStraightPair: (ScreenPoint, ScreenPoint) -> bool)
  {
    |out| == n && forall j :: 0 <= j < n ==> out[j] == SegmentSlot(s, points, j, offset, isStraightPair)
  }

  /** Appending the next complete pair extends a correct prefix of slots. */
  lemma AppendPairSlots(
    s: Settings, points: seq<ScreenPoint>, out: seq<SkPoint>, k: nat, offset: real,
    isStraightPair: (ScreenPoint, ScreenPoint) -> bool)
    requires k + k + 1 < |points|
    requires SlotsUpTo(s, points, out, k + k, offset, isStraightPair)
    ensures var pair := SegmentPair(s, points[k + k], points[k + k + 1], offset, isStraightPair);
      SlotsUpTo(s, points, out + [pair.0, pair.1], k + k + 2, offset, isStraightPair)
  {
    var i := k + k;
    assert i % 2 == 0;
    var pair := SegmentPair(s, points[i], points[i + 1], offset, isStraightPair);
    PairSlots(s, points, i, offset, isStraightPair);
    var next := out + [pair.0, pair.1];
    forall j | 0 <= j < i + 2
      ensures next[j] == SegmentSlot(s, points, j, offset, isStraightPair)
    {
      if j < i {
        assert next[j] == out[j];
      }
    }
  }

  /** The slot after the last complete pair of an odd count is the default point. */
  lemma TrailingSlot(
    s: Settings, points: seq<ScreenPoint>, out: seq<SkPoint>, k: nat, offset: real,
    isStraightPair: (ScreenPoint, ScreenPoint) -> bool)
    requires |points| == k + k + 1
    requires SlotsUpTo(s, points, out, k + k, offset, isStraightPair)
    ensures SlotsUpTo(s, points, out + [DefaultSkPoint], |points|, offset, isStraightPair)
  {
    var last := out + [DefaultSkPoint];
    forall j | 0 <= j < |points|
      ensures last[j] == SegmentSlot(s, points, j, offset, isStraightPair)
    {
      if j < |out| {
        assert last[j] == out[j];
      } else {
        assert j == k + k && j % 2 == 0 && j - j % 2 + 1 == |points|;
      }
    }
  }

  /** The snapping branch of DrawLineSegments: complete pairs only, so a
      trailing odd slot keeps the default point. */
  method SnappedSegmentPoints(
    s: Settings, points: seq<ScreenPoint>, offset: real,
    isStraightPair: (ScreenPoint, ScreenPoint) -> bool) returns (out: seq<SkPoint>)
    ensures |out| == |points|
    ensures forall i :: 0 <= i < |points| ==> out[i] == SegmentSlot(s, points, i, offset, isStraightPair)
  {
    out := [];
    var i := 0;
    ghost var k: nat := 0;
    while i + 1 < |points|
      invariant i == k + k && i <= |points|
      invariant SlotsUpTo(s, points, out, i, offset, isStraightPair)
    {
      var pair := SegmentPair(s, points[i], points[i + 1], offset, isStraightPair);
      AppendPairSlots(s, points, out, k, offset, isStraightPair);
      out := out + [pair.0, pair.1];
      i := i + 2;
      k := k + 1;
    }
    if i < |points| {
      TrailingSlot(s, points, out, k, offset, isStraightPair);
      out := out + [DefaultSkPoint];
    }
    assert SlotsUpTo(s, points, out, |points|, offset, isStraightPair);
  }

  /** The plain branch of DrawLineSegments: it reads one past the end on an
      odd count, and the list indexer raises ArgumentOutOfRange("index"). */
  method PlainSegmentPoints(s: Settings, points: seq<ScreenPoint>) returns (r: Result<seq<SkPoint>, Failure>)
    ensures r.Success? <==> |points| % 2 == 0
    ensures r.Failure? ==> r.error == ArgumentOutOfRange("index")
    ensures r.Success? ==> |r.value| == |points| && forall i :: 0 <= i < |points| ==> r.value[i] == ConvertPoint(s, points[i])
  {
    var out := seq(|points|, _ => DefaultSkPoint);
    var i := 0;
    while i < |points|
      invariant 0 <= i <= |points| && i % 2 == 0
      invariant |out| == |points|
      invariant forall j :: 0 <= j < i ==> out[j] == ConvertPoint(s, points[j])
    {
      if i + 1 >= |points| {
        return Failure(ArgumentOutOfRange("index"));
      }
      out := out[i := ConvertPoint(s, points[i])][i + 1 := ConvertPoint(s, points[i + 1])];
      i := i + 2;
    }
    r := Success(out);
  }

  /** The point array of DrawLineSegments, by the branch the edge mode selects. */
  method SegmentPoints(
    s: Settings, points: seq<ScreenPoint>, thickness: real, mode: EdgeRenderingMode,
    isStraightPair: (ScreenPoint, ScreenPoint) -> bool) returns (r: Result<seq<SkPoint>, Failure>)
    ensures SnapsSegments(s, mode) ==>
      && r.Success?
      && |r.value| == |points|
      && forall i :: 0 <= i < |points| ==>
        r.value[i] == SegmentSlot(s, points, i, SnapOffsetFor(s, thickness, mode), isStraightPair)
    ensures !SnapsSegments(s, mode) ==>
      && (r.Success? <==> |points| % 2 == 0)
      && (r.Failure? ==> r.error == ArgumentOutOfRange("index"))
      && (r.Success? ==> |r.value| == |points| && forall i :: 0 <= i < |points| ==> r.value[i] == ConvertPoint(s, points[i]))
  {
    if SnapsSegments(s, mode) {
      var out := SnappedSegmentPoints(s, points, SnapOffsetFor(s, thickness, mode), isStraightPair);
      r := Success(out);
    } else {
      r := PlainSegmentPoints(s, points);
    }
  }

  /** DrawLineSegments: one batched point-pair draw with the line paint. */
  method DrawLineSegments(
    s: Settings, points: seq<ScreenPoint>, stroke: OxyColor, thickness: real, mode: EdgeRenderingMode,
    dashArray: Option<seq<real>>, lineJoin: LineJoin,
    isStraightPair: (ScreenPoint, ScreenPoint) -> bool) returns (r: Outcome)
    ensures |points| < 2 || !StrokeDrawn(stroke, thickness) ==> r == NoOp
    ensures |points| >= 2 && StrokeDrawn(stroke, thickness) ==>
      && (r.failure.Some? <==> lineJoin.OtherJoin? || (!SnapsSegments(s, mode) && |points| % 2 == 1))
      && (lineJoin.OtherJoin? ==> r.failure == Some(ArgumentOutOfRange("lineJoin")))
      && (!lineJoin.OtherJoin? && !SnapsSegments(s, mode) && |points| % 2 == 1 ==>
            r.failure == Some(ArgumentOutOfRange("index")))
      && (r.failure.Some? ==> r.ops == [])
      && (r.failure.None? ==>
        && |r.ops| == 1
        && r.ops[0].IsStrokeDraw()
        && r.ops[0].DrawLinePoints?
        && r.ops[0].paint == LinePaintFor(s, stroke, thickness, mode, dashArray, lineJoin).value
        && |r.ops[0].points| == |points|
        && (SnapsSegments(s, mode) ==> forall i :: 0 <= i < |points| ==>
              r.ops[0].points[i] == SegmentSlot(s, points, i, SnapOffsetFor(s, thickness, mode), isStraightPair))
        && (!SnapsSegments(s, mode) ==> forall i :: 0 <= i < |points| ==>
              r.ops[0].points[i] == ConvertPoint(s, points[i])))
  {
    if |points| < 2 || !stroke.IsVisible() || thickness <= 0.0 {
      return NoOp;
    }
    var paint := LinePaintFor(s, stroke, thickness, mode, dashArray, lineJoin);
    if paint.Failure? {
      return Outcome([], Some(paint.error));
    }
    var pts := SegmentPoints(s, points, thickness, mode, isStraightPair);
    if pts.Failure? {
      return Outcome([], Some(pts.error));
    }
    r := Outcome([DrawLinePoints(pts.value, paint.value)], None);
  }
}

=== FILE: snapping.dfy ===
/**
 Coordinate conversion and pixel snapping (SkiaRenderContext.cs): device
 independent values are scaled by the DPI factor; on pixel targets,
 axis-aligned geometry is then snapped to pixel centres or pixel borders
 according to the parity of the stroke width.
 */
module Snapping {
  import opened Numeric
  import opened Types
  import opened Canvas

  /** Device-independent value to device pixels. */
  function Convert(s: Settings, v: real): real
  {
    v * s.dpiScale
  }

  /** Device pixels back to device-independent units. */
  function ConvertBack(s: Settings, v: real): real
  {
    v / s.dpiScale
  }

  /** Scaling to device pixels and back loses nothing, in either order. */
  lemma ConvertRoundTrip(s: Settings, x: real)
    ensures ConvertBack(s, Convert(s, x)) == x
    ensures Convert(s, ConvertBack(s, x)) == x
  {
  }

  function ConvertPoint(s: Settings, p: ScreenPoint): SkPoint
  {
    SkPoint(Convert(s, p.x), Convert(s, p.y))
  }

  function ConvertRect(s: Settings, r: OxyRect): SkRect
  {
    SkRect(Convert(s, r.left), Convert(s, r.top), Convert(s, r.Right()), Convert(s, r.Bottom()))
  }

  /** `v` sits on the pixel grid shifted by `offset`. */
  predicate OnPixelGrid(v: real, offset: real)
  {
    IsIntegral(v + offset)
  }

  /** `v` is a grid position no more than half a pixel from `exact`; at an
      exact half-pixel tie it is the neighbour farther from zero on the
      shifted grid, as rounding away from zero picks. */
  predicate SnappedFrom(v: real, exact: real, offset: real)
  {
    && OnPixelGrid(v, offset) && -0.5 <= v - exact <= 0.5
    && (v - exact == 0.5 ==> exact + offset > 0.0)
    && (exact - v == 0.5 ==> exact + offset < 0.0)
  }

  /** Moves `v` to the nearest position on the grid shifted by `offset`. */
  function Snap(v: real, offset: real): (r: real)
    ensures SnappedFrom(r, v, offset)
    ensures r - v == 0.5 ==> v + offset > 0.0
    ensures v - r == 0.5 ==> v + offset < 0.0
  {
    var n := RoundAway(v + offset);
    assert (n as real - offset) + offset == n as real;
    assert (n as real).Floor == n;
    n as real - offset
  }

  /** A snapped value is already on the grid, so snapping it again changes nothing. */
  lemma SnapIdempotent(v: real, offset: real)
    ensures Snap(Snap(v, offset), offset) == Snap(v, offset)
  {
    RoundAwayOfInteger(RoundAway(v + offset));
  }

  /** Snapping has one answer: two grid values snapped from the same exact
      value coincide, the tie rule deciding the half-pixel case. */
  lemma SnappedFromUnique(a: real, b: real, exact: real, offset: real)
    requires SnappedFrom(a, exact, offset) && SnappedFrom(b, exact, offset)
    ensures a == b
  {
    var m, n := (a + offset).Floor, (b + offset).Floor;
    assert a == m as real - offset && b == n as real - offset;
    assert a - b == (m - n) as real && -1 <= m - n <= 1;
  }

  /** Hence every snapped value is the one Snap computes. */
  lemma SnappedFromIsSnap(v: real, exact: real, offset: real)
    requires SnappedFrom(v, exact, offset)
    ensures v == Snap(exact, offset)
  {
    SnappedFromUnique(v, Snap(exact, offset), exact, offset);
  }

  /** The grid a stroke of the given width snaps to: 0.5 (pixel centres)
      when the width modulo two lies in [0.5, 1.5), 0 (pixel borders) otherwise. */
  function SnapOffset(thickness: real): (o: real)
    ensures o == 0.0 || o == 0.5
  {
    var m := RemTwo(thickness);
    if 0.5 <= m < 1.5 then 0.5 else 0.0
  }

  /** For a non-negative width, the offset is 0.5 exactly when the width
      rounds to an odd number of pixels. */
  lemma SnapOffsetParity(t: real)
    requires t >= 0.0
    ensures SnapOffset(t) == 0.5 <==> RoundAway(t) % 2 == 1
  {
    var k := (t / 2.0).Floor;
    var m := RemTwo(t);
    assert m == t - 2.0 * k as real;
    var f := RoundAway(t);
    assert f == (t + 0.5).Floor;
    if m < 0.5 {
      assert f == 2 * k;
    } else if m < 1.5 {
      assert f == 2 * k + 1;
    } else {
      assert f == 2 * k + 2;
    }
  }

  /** A width of n whole pixels snaps to pixel centres exactly when n is odd. */
  lemma SnapOffsetOfWholeWidth(n: nat)
    ensures SnapOffset(n as real) == (if n % 2 == 1 then 0.5 else 0.0)
  {
    SnapOffsetParity(n as real);
    RoundAwayOfInteger(n);
  }

  /** Zero and negative widths always snap to pixel borders (C#'s `%` keeps the sign). */
  lemma SnapOffsetNonPositive(t: real)
    requires t <= 0.0
    ensures SnapOffset(t) == 0.0
  {
  }

  /** The parity rule on the widths 1, 2, 2.4 and 2.6. */
  lemma SnapOffsetExamples()
    ensures SnapOffset(1.0) == 0.5
    ensures SnapOffset(2.0) == 0.0
    ensures SnapOffset(2.4) == 0.0
    ensures SnapOffset(2.6) == 0.5
  {
    assert Trunc(1.0 / 2.0) == 0;
    assert Trunc(2.0 / 2.0) == 1;
    assert Trunc(2.4 / 2.0) == 1;
    assert Trunc(2.6 / 2.0) == 1;
  }

  /** The stroke width in device pixels: the scaled width, rounded to whole
      pixels only for PreferSharpness on a pixel target. */
  function ActualThickness(s: Settings, thickness: real, mode: EdgeRenderingMode): (r: real)
    ensures mode == PreferSharpness && s.RendersToPixels() ==>
      IsIntegral(r) && SnappedFrom(r, Convert(s, thickness), 0.0)
    ensures !(mode == PreferSharpness && s.RendersToPixels()) ==> r == Convert(s, thickness)
  {
    var scaled := Convert(s, thickness);
    if mode == PreferSharpness && s.RendersToPixels() then Snap(scaled, 0.0) else scaled
  }

  /** The grid offset used for a stroke of the given device-independent
      width: pixel centres exactly when the actual width rounds to an odd
      number of pixels. */
  function SnapOffsetFor(s: Settings, thickness: real, mode: EdgeRenderingMode): (r: real)
    ensures r == 0.0 || r == 0.5
    ensures ActualThickness(s, thickness, mode) >= 0.0 ==>
      (r == 0.5 <==> RoundAway(ActualThickness(s, thickness, mode)) % 2 == 1)
    ensures ActualThickness(s, thickness, mode) <= 0.0 ==> r == 0.0
  {
    var t := ActualThickness(s, thickness, mode);
    if t >= 0.0 then SnapOffsetParity(t); SnapOffset(t) else SnapOffset(t)
  }

  /** Anti-aliasing is off only when speed is preferred. */
  predicate ShouldUseAntiAliasing(mode: EdgeRenderingMode)
  {
    mode != PreferSpeed
  }

  /** Geometry drawn without anti-aliasing is never snapped either: the speed
      mode leaves both refinements off. */
  lemma AliasedIsNeverSnapped(s: Settings, mode: EdgeRenderingMode, straight: bool)
    ensures !ShouldUseAntiAliasing(mode) <==> mode == PreferSpeed
    ensures !ShouldUseAntiAliasing(mode) ==>
      !SnapsRectangles(s, mode) && !SnapsSegments(s, mode) && !SnapsPolyline(s, mode, straight)
  {
  }

  /** Whether a rectangle is snapped (the switch of GetActualRect and GetActualRects). */
  predicate SnapsRectangles(s: Settings, mode: EdgeRenderingMode)
  {
    match mode
    case Adaptive => s.RendersToPixels()
    case Automatic => s.RendersToPixels()
    case PreferSharpness => s.RendersToPixels()
    case _ => false
  }

  /** Whether a polyline is snapped (the switch of GetActualPoints); `straight`
      says whether the whole point list is axis-aligned. */
  predicate SnapsPolyline(s: Settings, mode: EdgeRenderingMode, straight: bool)
  {
    match mode
    case Automatic => s.RendersToPixels() && straight
    case Adaptive => s.RendersToPixels() && straight
    case PreferSharpness => s.RendersToPixels()
    case _ => false
  }

  /** Whether the pairs of DrawLineSegments are candidates for snapping. */
  predicate SnapsSegments(s: Settings, mode: EdgeRenderingMode)
  {
    match mode
    case Automatic => s.RendersToPixels()
    case Adaptive => s.RendersToPixels()
    case PreferSharpness => s.RendersToPixels()
    case _ => false
  }

  /** Which geometry is snapped, in closed form. */
  lemma SnapEligibility(s: Settings, mode: EdgeRenderingMode, straight: bool)
    ensures mode == PreferSpeed || s.renderTarget == VectorGraphic ==>
      !SnapsRectangles(s, mode) && !SnapsSegments(s, mode) && !SnapsPolyline(s, mode, straight)
    ensures SnapsRectangles(s, mode) <==>
      s.RendersToPixels() && (mode == Automatic || mode == Adaptive || mode == PreferSharpness)
    ensures SnapsSegments(s, mode) <==> SnapsRectangles(s, mode)
    ensures SnapsPolyline(s, mode, straight) <==>
      SnapsRectangles(s, mode) && (straight || mode == PreferSharpness)
  {
  }

  /** What a converted point is: snapped from the scaled point, or exactly the scaled point. */
  predicate PlacedPoint(s: Settings, p: ScreenPoint, q: SkPoint, snap: bool, offset: real)
  {
    if snap then SnappedFrom(q.x, Convert(s, p.x), offset) && SnappedFrom(q.y, Convert(s, p.y), offset)
    else q == ConvertPoint(s, p)
  }

  /** What a converted rectangle is: every edge snapped from the scaled edge,
      or exactly the scaled rectangle. */
  predicate PlacedRect(s: Settings, r: OxyRect, q: SkRect, snap: bool, offset: real)
  {
    if snap then
      && SnappedFrom(q.left, Convert(s, r.left), offset)
      && SnappedFrom(q.top, Convert(s, r.top), offset)
      && SnappedFrom(q.right, Convert(s, r.Right()), offset)
      && SnappedFrom(q.bottom, Convert(s, r.Bottom()), offset)
    else q == ConvertRect(s, r)
  }

  /** A placed rectangle is determined by its input: the fill and the stroke
      of one rectangle land on the same device rectangle. */
  lemma PlacedRectUnique(s: Settings, r: OxyRect, q1: SkRect, q2: SkRect, snap: bool, offset: real)
    requires PlacedRect(s, r, q1, snap, offset) && PlacedRect(s, r, q2, snap, offset)
    ensures q1 == q2
  {
    if snap {
      SnappedFromUnique(q1.left, q2.left, Convert(s, r.left), offset);
      SnappedFromUnique(q1.top, q2.top, Convert(s, r.top), offset);
      SnappedFromUnique(q1.right, q2.right, Convert(s, r.Right()), offset);
      SnappedFromUnique(q1.bottom, q2.bottom, Convert(s, r.Bottom()), offset);
    }
  }

  function ConvertSnapPoint(s: Settings, p: ScreenPoint, offset: real): (q: SkPoint)
    ensures PlacedPoint(s, p, q, true, offset)
  {
    SkPoint(Snap(Convert(s, p.x), offset), Snap(Convert(s, p.y), offset))
  }

  function ConvertSnapRect(s: Settings, r: OxyRect, offset: real): (q: SkRect)
    ensures PlacedRect(s, r, q, true, offset)
  {
    SkRect(
      Snap(Convert(s, r.left), offset),
      Snap(Convert(s, r.top), offset),
      Snap(Convert(s, r.Right()), offset),
      Snap(Convert(s, r.Bottom()), offset))
  }

  /** The device points a polyline or polygon is drawn through. */
  function ActualPoints(
    s: Settings, points: seq<ScreenPoint>, thickness: real, mode: EdgeRenderingMode,
    isStraight: seq<ScreenPoint> -> bool): (r: seq<SkPoint>)
    ensures |r| == |points|
    ensures forall i :: 0 <= i < |points| ==>
      PlacedPoint(s, points[i], r[i], SnapsPolyline(s, mode, isStraight(points)), SnapOffsetFor(s, thickness, mode))
  {
    if SnapsPolyline(s, mode, isStraight(points)) then
      var offset := SnapOffsetFor(s, thickness, mode);
      seq(|points|, i requires 0 <= i < |points| => ConvertSnapPoint(s, points[i], offset))
    else
      seq(|points|, i requires 0 <= i < |points| => ConvertPoint(s, points[i]))
  }

  /** The device rectangle a rectangle is drawn as. */
  function ActualRect(s: Settings, rect: OxyRect, thickness: real, mode: EdgeRenderingMode): (r: SkRect)
    ensures PlacedRect(s, rect, r, SnapsRectangles(s, mode), SnapOffsetFor(s, thickness, mode))
  {
    if SnapsRectangles(s, mode) then ConvertSnapRect(s, rect, SnapOffsetFor(s, thickness, mode))
    else ConvertRect(s, rect)
  }

  /** The device rectangles a list of rectangles is drawn as. */
  function ActualRects(s: Settings, rects: seq<OxyRect>, thickness: real, mode: EdgeRenderingMode): (r: seq<SkRect>)
    ensures |r| == |rects|
    ensures forall i :: 0 <= i < |rects| ==>
      PlacedRect(s, rects[i], r[i], SnapsRectangles(s, mode), SnapOffsetFor(s, thickness, mode))
    ensures forall i :: 0 <= i < |rects| ==> r[i] == ActualRect(s, rects[i], thickness, mode)
  {
    if SnapsRectangles(s, mode) then
      var offset := SnapOffset(ActualThickness(s, thickness, mode));
      seq(|rects|, i requires 0 <= i < |rects| => ConvertSnapRect(s, rects[i], offset))
    else
      seq(|rects|, i requires 0 <= i < |rects| => ConvertRect(s, rects[i]))
  }

  /** Dash lengths in device pixels: each scaled by the DPI factor and the stroke width. */
  function ConvertDashArray(s: Settings, values: seq<real>, strokeWidth: real): (r: seq<real>)
    ensures |r| == |values|
    ensures strokeWidth != 0.0 ==> forall i :: 0 <= i < |values| ==> ConvertBack(s, r[i]) / strokeWidth == values[i]
    ensures strokeWidth == 0.0 ==> forall i :: 0 <= i < |r| ==> r[i] == 0.0
  {
    seq(|values|, i requires 0 <= i < |values| => Convert(s, values[i]) * strokeWidth)
  }

  /** The shared paint set up for a fill. */
  function FillPaintFor(color: OxyColor, mode: EdgeRenderingMode): (p: Paint)
    ensures p.FillPaint? && p.color == color
    ensures !p.antialias <==> mode == PreferSpeed
  {
    FillPaint(color, ShouldUseAntiAliasing(mode))
  }

  /** The shared paint set up for a plain stroke: solid, mitred, of the actual width. */
  function StrokePaintFor(s: Settings, color: OxyColor, thickness: real, mode: EdgeRenderingMode): (p: Paint)
    ensures p.StrokePaint? && p.color == color && p.dash.None? && p.join == JoinMiter
    ensures p.strokeWidth == ActualThickness(s, thickness, mode)
    ensures p.miterLimit == s.miterLimit
    ensures !p.antialias <==> mode == PreferSpeed
  {
    StrokePaint(color, ShouldUseAntiAliasing(mode), ActualThickness(s, thickness, mode), s.miterLimit, JoinMiter, None)
  }

  /** The shared paint set up for a line: a stroke with the requested dash
      pattern and join; an unnamed join value raises ArgumentOutOfRange. */
  function LinePaintFor(
    s: Settings, color: OxyColor, thickness: real, mode: EdgeRenderingMode,
    dashArray: Option<seq<real>>, lineJoin: LineJoin): (r: Result<Paint, Failure>)
    ensures r.Failure? <==> lineJoin.OtherJoin?
    ensures r.Failure? ==> r.error == ArgumentOutOfRange("lineJoin")
    ensures r.Success? ==>
      && r.value.StrokePaint?
      && r.value.color == color
      && r.value.strokeWidth == ActualThickness(s, thickness, mode)
      && r.value.miterLimit == s.miterLimit
      && (!r.value.antialias <==> mode == PreferSpeed)
      && (r.value.dash.Some? <==> dashArray.Some?)
      && (dashArray.Some? ==> r.value.dash.value == ConvertDashArray(s, dashArray.value, r.value.strokeWidth))
      && (lineJoin == Miter <==> r.value.join == JoinMiter)
      && (lineJoin == Round <==> r.value.join == JoinRound)
      && (lineJoin == Bevel <==> r.value.join == JoinBevel)
  {
    var p := StrokePaintFor(s, color, thickness, mode);
    var dash := if dashArray.Some? then Some(ConvertDashArray(s, dashArray.value, p.strokeWidth)) else None;
    match lineJoin
    case Miter => Success(p.(dash := dash, join := JoinMiter))
    case Round => Success(p.(dash := dash, join := JoinRound))
    case Bevel => Success(p.(dash := dash, join := JoinBevel))
    case OtherJoin(_) => Failure(ArgumentOutOfRange("lineJoin"))
  }
}

=== FILE: text_layout.dfy ===
/**
 Text output of the render context (SkiaRenderContext.cs): multi-line text
 placed by horizontal and vertical alignment, drawn shaped or plain, and the
 matching text measurement.
 */
module TextLayout {
  import opened Numeric
  import opened Types
  import opened Canvas
  import opened Snapping
  import opened Fonts
  import opened RenderState

  /** Default font size of both text calls. */
  const DefaultFontSize := 10.0

  /** Default font weight of DrawText. */
  const DrawTextDefaultWeight := 400.0

  /** Default font weight of MeasureText; it differs from DrawText's. */
  const MeasureTextDefaultWeight := 500.0

  /** Distance from the first baseline to the last one of `lineCount` lines
      (negative for no lines, as SkiaRenderContext's `lines.Length - 1` is). */
  function Span(lineSpacing: real, lineCount: nat): real
  {
    lineSpacing * (lineCount as real - 1.0)
  }

  /** Height of a block of `lineCount` lines. */
  function BlockHeight(lineSpacing: real, lineCount: nat): real
  {
    lineSpacing * lineCount as real
  }

  /** Baseline of line `k` when the first one is at `first`. */
  function Baseline(first: real, k: nat, lineSpacing: real): real
  {
    first + k as real * lineSpacing
  }

  /** One line further down from the next baseline is the same line. */
  lemma BaselineStep(first: real, k: nat, lineSpacing: real)
    requires k > 0
    ensures Baseline(first + lineSpacing, k - 1, lineSpacing) == Baseline(first, k, lineSpacing)
  {
  }

  /** Offset of the first baseline below the anchor point. With the first
      line's top at `offset + ascent` and the last line's bottom at
      `offset + Span + descent`: Top puts the block's top on the anchor,
      Bottom its bottom, Middle its centre. */
  function VerticalAnchor(v: VerticalAlignment, m: FontMetrics, lineCount: nat): (r: Result<real, Failure>)
    ensures r.Failure? <==> v.OtherVertical?
    ensures r.Failure? ==> r.error == ArgumentOutOfRange("verticalAlignment")
    ensures v == Top ==> r.Success? && r.value + m.ascent == 0.0
    ensures v == Bottom ==> r.Success? && r.value + Span(m.lineSpacing, lineCount) + m.descent == 0.0
    ensures v == Middle ==> r.Success? && (r.value + m.ascent) + (r.value + Span(m.lineSpacing, lineCount) + m.descent) == 0.0
  {
    var span := Span(m.lineSpacing, lineCount);
    match v
    case Top => Success(-m.ascent)
    case Middle => Success(-(m.ascent + m.descent + span) / 2.0)
    case Bottom => Success(-m.descent - span)
    case OtherVertical(_) => Failure(ArgumentOutOfRange("verticalAlignment"))
  }

  /** The middle anchor lies halfway between the top and bottom anchors. */
  lemma MiddleIsHalfway(m: FontMetrics, lineCount: nat)
    ensures VerticalAnchor(Middle, m, lineCount).value
      == (VerticalAnchor(Top, m, lineCount).value + VerticalAnchor(Bottom, m, lineCount).value) / 2.0
  {
  }

  /** x offset of a shaped line of the given width: the line spans
      `[offset, offset + width]`, which starts (Left), is centred (Center) or
      ends (Right) at the anchor. */
  function HorizontalOffset(h: HorizontalAlignment, width: real): (r: Result<real, Failure>)
    ensures r.Failure? <==> h.OtherHorizontal?
    ensures r.Failure? ==> r.error == ArgumentOutOfRange("horizontalAlignment")
    ensures h == Left ==> r == Success(0.0)
    ensures h == Right ==> r.Success? && r.value + width == 0.0
    ensures h == Center ==> r.Success? && r.value + (r.value + width) == 0.0
  {
    match h
    case Left => Success(0.0)
    case Center => Success(-width / 2.0)
    case Right => Success(-width)
    case OtherHorizontal(_) => Failure(ArgumentOutOfRange("horizontalAlignment"))
  }

  /** Paint alignment of an unshaped line; it fails exactly when the shaped
      offset does. */
  function TextAlignFor(h: HorizontalAlignment): (r: Result<TextAlign, Failure>)
    ensures forall w: real :: r.Failure? <==> HorizontalOffset(h, w).Failure?
    ensures r.Failure? ==> r.error == ArgumentOutOfRange("horizontalAlignment")
    ensures r.Success? ==>
      && (r.value == AlignLeft <==> h == Left)
      && (r.value == AlignCenter <==> h == Center)
      && (r.value == AlignRight <==> h == Right)
  {
    match h
    case Left => Success(AlignLeft)
    case Center => Success(AlignCenter)
    case Right => Success(AlignRight)
    case OtherHorizontal(_) => Failure(ArgumentOutOfRange("horizontalAlignment"))
  }

  /** Width of one line in device pixels: the paint's own measurement
      without shaping, the scaled sum of glyph advances with it. */
  function LineWidth(s: Settings, fs: FontSystem, style: TextStyle, shaper: Option<Shaper>, line: string): (w: real)
    requires s.useTextShaping ==> shaper.Some?
    ensures !s.useTextShaping ==> w == fs.plainWidth(style.typeface, style.textSize, line)
    ensures s.useTextShaping ==>
      w * 512.0 == Sum(fs.glyphAdvances(shaper.value.typeface, line)) as real * style.textSize
    ensures s.useTextShaping && style.textSize > 0.0 ==>
      (w >= 0.0 <==> Sum(fs.glyphAdvances(shaper.value.typeface, line)) >= 0)
  {
    if !s.useTextShaping then fs.plainWidth(style.typeface, style.textSize, line)
    else Sum(fs.glyphAdvances(shaper.value.typeface, line)) as real * style.textSize / 512.0
  }

  /** `op` draws `line` with baseline `y` in the fill colour: shaped at the
      aligned offset, or plain at x = 0 with the paint doing the alignment. */
  predicate LineDrawn(
    s: Settings, fs: FontSystem, style: TextStyle, fill: OxyColor, shaper: Option<Shaper>,
    h: HorizontalAlignment, op: CanvasOp, line: string, y: real)
    requires s.useTextShaping ==> shaper.Some?
  {
    && (op.DrawShapedText? || op.DrawPlainText?)
    && op.text == line && op.y == y && op.paint == TextPaint(fill, style)
    && (s.useTextShaping ==> op.DrawShapedText? && HorizontalOffset(h, LineWidth(s, fs, style, shaper, line)) == Success(op.x))
    && (!s.useTextShaping ==> op.DrawPlainText? && op.x == 0.0 && TextAlignFor(h) == Success(op.align))
  }

  /** The draw call for one line, or the alignment exception. */
  function LineOp(
    s: Settings, fs: FontSystem, style: TextStyle, fill: OxyColor, shaper: Option<Shaper>,
    h: HorizontalAlignment, line: string, y: real): (r: Result<CanvasOp, Failure>)
    requires s.useTextShaping ==> shaper.Some?
    ensures r.Failure? <==> h.OtherHorizontal?
    ensures r.Failure? ==> r.error == ArgumentOutOfRange("horizontalAlignment")
    ensures r.Success? ==> LineDrawn(s, fs, style, fill, shaper, h, r.value, line, y)
  {
    if s.useTextShaping then
      match HorizontalOffset(h, LineWidth(s, fs, style, shaper, line))
      case Success(dx) => Success(DrawShapedText(line, dx, y, TextPaint(fill, style)))
      case Failure(e) => Failure(e)
    else
      match TextAlignFor(h)
      case Success(align) => Success(DrawPlainText(line, 0.0, y, align, TextPaint(fill, style)))
      case Failure(e) => Failure(e)
  }

  /** The line loop: each line one line spacing below the previous one,
      starting at baseline `y`; the first alignment exception ends it. */
  function LineOps(
    s: Settings, fs: FontSystem, style: TextStyle, fill: OxyColor, shaper: Option<Shaper>,
    h: HorizontalAlignment, lines: seq<string>, y: real, lineSpacing: real): (r: Outcome)
    requires s.useTextShaping ==> shaper.Some?
    ensures r.failure.Some? <==> |lines| > 0 && h.OtherHorizontal?
    ensures r.failure.Some? ==> r == Outcome([], Some(ArgumentOutOfRange("horizontalAlignment")))
    ensures r.failure.None? ==> |r.ops| == |lines| && forall i :: 0 <= i < |r.ops| ==> r.ops[i].IsDraw()
    decreases |lines|
  {
    if |lines| == 0 then NoOp
    else
      match LineOp(s, fs, style, fill, shaper, h, lines[0], y)
      case Failure(e) => Outcome([], Some(e))
      case Success(op) =>
        var rest := LineOps(s, fs, style, fill, shaper, h, lines[1..], y + lineSpacing, lineSpacing);
        Outcome([op] + rest.ops, rest.failure)
  }

  /** Line k of the loop is drawn at baseline `y + k * lineSpacing`: the
      running increment of the loop has the closed form of a multiple. */
  lemma {:induction false} LineOpsPlaceLines(
    s: Settings, fs: FontSystem, style: TextStyle, fill: OxyColor, shaper: Option<Shaper>,
    h: HorizontalAlignment, lines: seq<string>, y: real, lineSpacing: real)
    requires s.useTextShaping ==> shaper.Some?
    requires !h.OtherHorizontal?
    ensures var r := LineOps(s, fs, style, fill, shaper, h, lines, y, lineSpacing);
      forall k :: 0 <= k < |lines| ==>
        LineDrawn(s, fs, style, fill, shaper, h, r.ops[k], lines[k], Baseline(y, k, lineSpacing))
    decreases |lines|
  {
    if |lines| > 0 {
      var r := LineOps(s, fs, style, fill, shaper, h, lines, y, lineSpacing);
      var rest := LineOps(s, fs, style, fill, shaper, h, lines[1..], y + lineSpacing, lineSpacing);
      LineOpsPlaceLines(s, fs, style, fill, shaper, h, lines[1..], y + lineSpacing, lineSpacing);
      assert r.ops == [LineOp(s, fs, style, fill, shaper, h, lines[0], y).value] + rest.ops;
      forall k | 0 <= k < |lines|
        ensures LineDrawn(s, fs, style, fill, shaper, h, r.ops[k], lines[k], Baseline(y, k, lineSpacing))
      {
        if k > 0 {
          assert r.ops[k] == rest.ops[k - 1] && lines[k] == lines[1..][k - 1];
          BaselineStep(y, k, lineSpacing);
        }
      }
    }
  }

  /** Draws between a Save-Translate-Rotate prefix and RestoreToCount of the
      count before the Save leave the save count where it started. */
  lemma {:induction false} FrameRestoresSaveCount(
    count: SaveCount, dx: real, dy: real, degrees: real, body: seq<CanvasOp>)
    requires forall i :: 0 <= i < |body| ==> body[i].IsDraw()
    ensures SaveCountAfter(count, [Save, Translate(dx, dy), RotateDegrees(degrees)] + body + [RestoreToCount(count)])
      == count
  {
    var prefix := [Save, Translate(dx, dy), RotateDegrees(degrees)];
    SaveCountAfterAppend(count, prefix + body, [RestoreToCount(count)]);
    SaveCountAfterAppend(count, prefix, body);
    assert prefix[1..] == [Translate(dx, dy), RotateDegrees(degrees)];
    assert prefix[1..][1..] == [RotateDegrees(degrees)];
    assert prefix[1..][1..][1..] == [];
    assert SaveCountAfter(count + 1, prefix[1..][1..]) == count + 1;
    assert SaveCountAfter(count, prefix) == count + 1;
    DrawsKeepSaveCount(count + 1, body);
    assert [RestoreToCount(count)][1..] == [];
  }

  /** The lines of a non-null text. */
  function TextLines(fs: FontSystem, text: Option<string>): seq<string>
  {
    if text.None? then [] else fs.splitLines(text.value)
  }

  /** The canvas part of DrawText: save, translate to the anchor point,
      rotate, draw the lines from baseline `anchor` down, and restore the
      saved state whether or not the line loop raised. */
  function TextFrame(
    s: Settings, fs: FontSystem, style: TextStyle, shaper: Option<Shaper>, fill: OxyColor,
    count: SaveCount, x: real, y: real, rotation: real, h: HorizontalAlignment,
    lines: seq<string>, anchor: real, lineSpacing: real): (r: Outcome)
    requires s.useTextShaping ==> shaper.Some?
    ensures SaveCountAfter(count, r.ops) == count
    ensures r.failure.Some? <==> |lines| > 0 && h.OtherHorizontal?
    ensures r.failure.Some? ==> r.failure == Some(ArgumentOutOfRange("horizontalAlignment"))
  {
    var body := LineOps(s, fs, style, fill, shaper, h, lines, anchor, lineSpacing);
    FrameRestoresSaveCount(count, x, y, rotation, body.ops);
    Outcome([Save, Translate(x, y), RotateDegrees(rotation)] + body.ops + [RestoreToCount(count)], body.failure)
  }

  /** What TextFrame issues: the saved, translated and rotated state, line k
      at baseline `anchor + k * lineSpacing` (no line when the horizontal
      alignment is invalid), and the restore. */
  lemma TextFrameLayout(
    s: Settings, fs: FontSystem, style: TextStyle, shaper: Option<Shaper>, fill: OxyColor,
    count: SaveCount, x: real, y: real, rotation: real, h: HorizontalAlignment,
    lines: seq<string>, anchor: real, lineSpacing: real)
    requires s.useTextShaping ==> shaper.Some?
    ensures var r := TextFrame(s, fs, style, shaper, fill, count, x, y, rotation, h, lines, anchor, lineSpacing);
      && |r.ops| >= 4
      && r.ops[..3] == [Save, Translate(x, y), RotateDegrees(rotation)]
      && r.ops[|r.ops| - 1] == RestoreToCount(count)
      && (r.failure.Some? ==> |r.ops| == 4)
      && (r.failure.None? ==> |r.ops| == |lines| + 4 && forall k :: 0 <= k < |lines| ==>
            LineDrawn(s, fs, style, fill, shaper, h, r.ops[k + 3], lines[k], Baseline(anchor, k, lineSpacing)))
  {
    var body := LineOps(s, fs, style, fill, shaper, h, lines, anchor, lineSpacing);
    var ops := [Save, Translate(x, y), RotateDegrees(rotation)] + body.ops + [RestoreToCount(count)];
    assert ops[..3] == [Save, Translate(x, y), RotateDegrees(rotation)];
    if body.failure.None? && |lines| > 0 {
      LineOpsPlaceLines(s, fs, style, fill, shaper, h, lines, anchor, lineSpacing);
      forall k | 0 <= k < |lines|
        ensures LineDrawn(s, fs, style, fill, shaper, h, ops[k + 3], lines[k], Baseline(anchor, k, lineSpacing))
      {
        assert ops[k + 3] == body.ops[k];
      }
    }
  }

  /** DrawText: nothing for null text or an invisible colour; otherwise the
      text paint is looked up (filling the caches even if an exception
      follows), the vertical alignment is checked, and the lines are drawn
      inside a saved, translated and rotated canvas state that is restored
      afterwards, exception or not. */
  function DrawText(
    c: Context, fs: FontSystem, p: ScreenPoint, text: Option<string>, fill: OxyColor,
    family: Option<string>, fontSize: real, fontWeight: real, rotation: real,
    h: HorizontalAlignment, v: VerticalAlignment): (r: Step)
    ensures text.None? || !fill.IsVisible() ==> r == Step(c, NoOp)
    ensures r.ctx.settings == c.settings && r.ctx.canvas == c.canvas
    ensures text.Some? && fill.IsVisible() ==>
      var key := FontDescriptor(family, fontWeight);
      && key in r.ctx.fonts.typefaces
      && r.ctx.fonts.typefaces.Keys == c.fonts.typefaces.Keys + {key}
      && (c.fonts.Valid() ==> r.ctx.fonts.Valid())
    ensures c.canvas.Some? ==> SaveCountAfter(c.canvas.value, r.outcome.ops) == c.canvas.value
    ensures text.Some? && fill.IsVisible() && v.OtherVertical? ==>
      r.outcome == Outcome([], Some(ArgumentOutOfRange("verticalAlignment")))
    ensures text.Some? && fill.IsVisible() && !v.OtherVertical? && c.canvas.None? ==>
      r.outcome == Outcome([], Some(NullReference))
    ensures text.Some? && fill.IsVisible() && !v.OtherVertical? && c.canvas.Some? ==>
      && (r.outcome.failure.Some? <==> |TextLines(fs, text)| > 0 && h.OtherHorizontal?)
      && (r.outcome.failure.Some? ==> r.outcome.failure == Some(ArgumentOutOfRange("horizontalAlignment")))
  {
    if text.None? || !fill.IsVisible() then Step(c, NoOp)
    else
      var tp := GetTextPaint(c.settings, fs, c.fonts, family, fontSize, fontWeight);
      var c1 := c.(fonts := tp.cache);
      var lines := fs.splitLines(text.value);
      var m := fs.metrics(tp.style.typeface, tp.style.textSize);
      match VerticalAnchor(v, m, |lines|)
      case Failure(e) => Step(c1, Outcome([], Some(e)))
      case Success(anchor) =>
        if c.canvas.None? then Step(c1, Outcome([], Some(NullReference)))
        else
          Step(c1, TextFrame(c.settings, fs, tp.style, tp.shaper, fill, c.canvas.value,
            Convert(c.settings, p.x), Convert(c.settings, p.y), rotation, h, lines, anchor, m.lineSpacing))
  }

  /** A DrawText call that reaches the canvas draws line k of the text at
      baseline `anchor + k * lineSpacing` inside the saved, translated and
      rotated state, with the anchor given by the vertical alignment and the
      font metrics of the looked-up paint. */
  lemma DrawTextLayout(
    c: Context, fs: FontSystem, p: ScreenPoint, text: string, fill: OxyColor,
    family: Option<string>, fontSize: real, fontWeight: real, rotation: real,
    h: HorizontalAlignment, v: VerticalAlignment)
    requires fill.IsVisible() && !v.OtherVertical? && c.canvas.Some?
    ensures var r := DrawText(c, fs, p, Some(text), fill, family, fontSize, fontWeight, rotation, h, v);
      var tp := GetTextPaint(c.settings, fs, c.fonts, family, fontSize, fontWeight);
      var lines := fs.splitLines(text);
      var m := fs.metrics(tp.style.typeface, tp.style.textSize);
      var anchor := VerticalAnchor(v, m, |lines|).value;
      var ops := r.outcome.ops;
      && |ops| >= 4
      && ops[..3] == [Save, Translate(Convert(c.settings, p.x), Convert(c.settings, p.y)), RotateDegrees(rotation)]
      && ops[|ops| - 1] == RestoreToCount(c.canvas.value)
      && (r.outcome.failure.None? ==> |ops| == |lines| + 4 && forall k :: 0 <= k < |lines| ==>
            LineDrawn(c.settings, fs, tp.style, fill, tp.shaper, h, ops[k + 3], lines[k], Baseline(anchor, k, m.lineSpacing)))
  {
    var tp := GetTextPaint(c.settings, fs, c.fonts, family, fontSize, fontWeight);
    var lines := fs.splitLines(text);
    var m := fs.metrics(tp.style.typeface, tp.style.textSize);
    var anchor := VerticalAnchor(v, m, |lines|).value;
    var frame := TextFrame(c.settings, fs, tp.style, tp.shaper, fill, c.canvas.value,
      Convert(c.settings, p.x), Convert(c.settings, p.y), rotation, h, lines, anchor, m.lineSpacing);
    assert DrawText(c, fs, p, Some(text), fill, family, fontSize, fontWeight, rotation, h, v).outcome == frame;
    TextFrameLayout(c.settings, fs, tp.style, tp.shaper, fill, c.canvas.value,
      Convert(c.settings, p.x), Convert(c.settings, p.y), rotation, h, lines, anchor, m.lineSpacing);
    assert frame.failure.None? ==> forall k :: 0 <= k < |lines| ==>
      LineDrawn(c.settings, fs, tp.style, fill, tp.shaper, h, frame.ops[k + 3], lines[k], Baseline(anchor, k, m.lineSpacing));
  }

  /** Line widths of a text, in device pixels. */
  function LineWidths(s: Settings, fs: FontSystem, style: TextStyle, shaper: Option<Shaper>, lines: seq<string>): (r: seq<real>)
    requires s.useTextShaping ==> shaper.Some?
    ensures |r| == |lines|
    ensures forall k :: 0 <= k < |lines| ==> r[k] == LineWidth(s, fs, style, shaper, lines[k])
  {
    seq(|lines|, k requires 0 <= k < |lines| => LineWidth(s, fs, style, shaper, lines[k]))
  }

  /** The measured size of lines with the given device widths and block
      height: the height, and the widest line, both converted back to
      device-independent units. */
  function BlockSize(s: Settings, widths: seq<real>, height: real): (r: OxySize)
    requires |widths| > 0
    ensures Convert(s, r.height) == height
    ensures forall k :: 0 <= k < |widths| ==> widths[k] <= Convert(s, r.width)
    ensures exists k :: 0 <= k < |widths| && widths[k] == Convert(s, r.width)
  {
    var width := MaxOf(widths);
    ConvertRoundTrip(s, width);
    ConvertRoundTrip(s, height);
    OxySize(ConvertBack(s, width), ConvertBack(s, height))
  }

  /** A measurement: the context afterwards and the size or the exception. */
  datatype Measurement = Measurement(ctx: Context, size: Result<OxySize, Failure>)

  /** MeasureText: (0, 0) for null text; otherwise the text paint is looked
      up and the size is the widest line by the line spacing times the line
      count, both in device-independent units. With no lines at all the
      maximum of an empty sequence raises. */
  function MeasureText(
    c: Context, fs: FontSystem, text: Option<string>, family: Option<string>, fontSize: real,
    fontWeight: real): (r: Measurement)
    ensures text.None? ==> r == Measurement(c, Success(OxySize(0.0, 0.0)))
    ensures r.ctx.settings == c.settings && r.ctx.canvas == c.canvas
    ensures text.Some? ==>
      var key := FontDescriptor(family, fontWeight);
      && key in r.ctx.fonts.typefaces
      && r.ctx.fonts.typefaces.Keys == c.fonts.typefaces.Keys + {key}
      && (c.fonts.Valid() ==> r.ctx.fonts.Valid())
    ensures text.Some? && |TextLines(fs, text)| == 0 ==>
      r.size == Failure(InvalidOperation("Sequence contains no elements"))
    ensures text.Some? && |TextLines(fs, text)| > 0 ==>
      var tp := GetTextPaint(c.settings, fs, c.fonts, family, fontSize, fontWeight);
      var lines := TextLines(fs, text);
      var m := fs.metrics(tp.style.typeface, tp.style.textSize);
      && r.size.Success?
      && Convert(c.settings, r.size.value.height) == BlockHeight(m.lineSpacing, |lines|)
      && (forall k :: 0 <= k < |lines| ==>
            LineWidth(c.settings, fs, tp.style, tp.shaper, lines[k]) <= Convert(c.settings, r.size.value.width))
      && (exists k :: 0 <= k < |lines| &&
            LineWidth(c.settings, fs, tp.style, tp.shaper, lines[k]) == Convert(c.settings, r.size.value.width))
  {
    if text.None? then Measurement(c, Success(OxySize(0.0, 0.0)))
    else
      var lines := fs.splitLines(text.value);
      var tp := GetTextPaint(c.settings, fs, c.fonts, family, fontSize, fontWeight);
      var c1 := c.(fonts := tp.cache);
      var height := BlockHeight(fs.metrics(tp.style.typeface, tp.style.textSize).lineSpacing, |lines|);
      if |lines| == 0 then Measurement(c1, Failure(InvalidOperation("Sequence contains no elements")))
      else
        Measurement(c1, Success(BlockSize(c.settings, LineWidths(c.settings, fs, tp.style, tp.shaper, lines), height)))
  }

  /** With shaping on, a single line drawn right- or centre-aligned is moved
      left by its measured width, or half of it, when both calls ask for the
      same font on the same context. */
  lemma MeasureMatchesDrawOffset(
    c: Context, fs: FontSystem, p: ScreenPoint, text: string, fill: OxyColor,
    family: Option<string>, fontSize: real, fontWeight: real, rotation: real,
    h: HorizontalAlignment, v: VerticalAlignment)
    requires c.settings.useTextShaping && c.canvas.Some? && fill.IsVisible()
    requires !v.OtherVertical? && (h == Right || h == Center)
    requires |fs.splitLines(text)| == 1
    ensures var drawn := DrawText(c, fs, p, Some(text), fill, family, fontSize, fontWeight, rotation, h, v);
      var measured := MeasureText(c, fs, Some(text), family, fontSize, fontWeight);
      var w := Convert(c.settings, measured.size.value.width);
      && measured.size.Success?
      && drawn.outcome.failure.None?
      && drawn.outcome.ops[3].DrawShapedText?
      && drawn.outcome.ops[3].x == (if h == Right then -w else -w / 2.0)
  {
    var drawn := DrawText(c, fs, p, Some(text), fill, family, fontSize, fontWeight, rotation, h, v);
    var measured := MeasureText(c, fs, Some(text), family, fontSize, fontWeight);
    var tp := GetTextPaint(c.settings, fs, c.fonts, family, fontSize, fontWeight);
    var lines := TextLines(fs, Some(text));
    var width := LineWidth(c.settings, fs, tp.style, tp.shaper, lines[0]);
    assert width == Convert(c.settings, measured.size.value.width);
    DrawTextLayout(c, fs, p, text, fill, family, fontSize, fontWeight, rotation, h, v);
    assert HorizontalOffset(h, width) == Success(drawn.outcome.ops[3].x);
  }

  /** The default weights of the two text calls differ, so measuring with
      the defaults after drawing with them, starting from empty caches,
      leaves two typefaces cached for the one family. */
  lemma DefaultWeightsCacheTwoTypefaces(
    c: Context, fs: FontSystem, p: ScreenPoint, text: string, fill: OxyColor, family: Option<string>)
    requires c.fonts.typefaces == map[] && fill.IsVisible()
    ensures var drawn := DrawText(c, fs, p, Some(text), fill, family, DefaultFontSize, DrawTextDefaultWeight, 0.0, Left, Top);
      var measured := MeasureText(drawn.ctx, fs, Some(text), family, DefaultFontSize, MeasureTextDefaultWeight);
      measured.ctx.fonts.typefaces.Keys
        == {FontDescriptor(family, DrawTextDefaultWeight), FontDescriptor(family, MeasureTextDefaultWeight)}
      && |measured.ctx.fonts.typefaces.Keys| == 2
  {
  }
}

=== FILE: types.dfy ===
/**
 Value types shared by the render context: optional values and results, the
 device-independent and device-pixel geometry, colours, the enumerations the
 drawing protocol takes, the exceptions it can raise, and the context's
 configuration.
 */
module Types {

  datatype Option<+T> = None | Some(value: T)

  datatype Result<+T, +E> = Success(value: T) | Failure(error: E)

  /** The exceptions the render context raises. */
  datatype Failure =
    | NullReference
    | ArgumentOutOfRange(parameter: string)
    | InvalidOperation(message: string)

  /** A point in device-independent units (OxyPlot's ScreenPoint). */
  datatype ScreenPoint = ScreenPoint(x: real, y: real)

  /** A point in device pixels (SkiaSharp's SKPoint). */
  datatype SkPoint = SkPoint(x: real, y: real)

  /** The value an unassigned slot of a fresh SKPoint array holds. */
  const DefaultSkPoint := SkPoint(0.0, 0.0)

  /** A rectangle in device-independent units, stored as OxyRect stores it. */
  datatype OxyRect = OxyRect(left: real, top: real, width: real, height: real)
  {
    function Right(): real { left + width }
    function Bottom(): real { top + height }
  }

  /** A rectangle in device pixels, by its four edges (SKRect). */
  datatype SkRect = SkRect(left: real, top: real, right: real, bottom: real)

  /** A size in device-independent units (OxySize). */
  datatype OxySize = OxySize(width: real, height: real)

  newtype byte = b: int | 0 <= b < 256

  /** An ARGB colour; a colour is drawn only when it is not fully transparent. */
  datatype OxyColor = OxyColor(a: byte, r: byte, g: byte, b: byte)
  {
    predicate IsVisible() { a != 0 }
  }

  /** How edges are rendered. PreferGeometricAccuracy is the library's fifth
      member; every switch of the render context sends it to its default arm. */
  datatype EdgeRenderingMode =
    | Automatic
    | Adaptive
    | PreferSharpness
    | PreferSpeed
    | PreferGeometricAccuracy

  datatype RenderTarget = Screen | PixelGraphic | VectorGraphic

  /** Line joins; `OtherJoin` is an integer outside the named members. */
  datatype LineJoin = Miter | Round | Bevel | OtherJoin(code: int)

  /** `OtherHorizontal` is an integer outside the named members. */
  datatype HorizontalAlignment = Left | Center | Right | OtherHorizontal(code: int)

  /** `OtherVertical` is an integer outside the named members. */
  datatype VerticalAlignment = Top | Middle | Bottom | OtherVertical(code: int)

  /** The DPI scaling factor: 1 is 96 dots per inch. */
  type Scale = r: real | r > 0.0 witness 1.0

  /** The configuration of a render context. */
  datatype Settings = Settings(
    dpiScale: Scale,
    renderTarget: RenderTarget,
    useTextShaping: bool,
    miterLimit: real)
  {
    predicate RendersToScreen() { renderTarget == Screen }

    /** Every target except a vector graphic is made of discrete pixels. */
    predicate RendersToPixels() { renderTarget != VectorGraphic }
  }

  /** The configuration a freshly constructed render context has. */
  const DefaultSettings := Settings(1.0, Screen, true, 10.0)
}
